=== FILE: README.md ===
# MLBB squad tracker: the player and squad registry

This project models the data logic of the Mobile Legends squad-tracker
Discord bot. It covers two JSON lists and the commands that read and edit
them:

- the squads: name, description, creator and creation time;
- the players: Discord id and name, game id and game name, and optional
  keys for squad, squad title (`role`), rank, win rate, availability and
  the map of preferred positions to heroes.

Every command handler becomes a pure function. It takes the snapshot the
handler loaded and returns either the list it would save or the error
message it would send. The error messages become constructors of
`Db.Error`. A dictionary key that may be absent is an `Option` field, so
"key missing" and "key holds the empty string" stay distinct, as they are
in the bot.

Modules:

- `Wrappers`: `Option` and `Result`.
- `Text`: ASCII lower- and upper-casing, `strip`, substring search,
  `split` and `join` on one character, and the `%` rule for win rates.
- `Seqs`: first-match search and order-preserving filtering.
- `Db`: `db.py`. This covers loading with default back-filling, the
  lookups, squad membership and the free-agent test, plus the invariants
  the commands keep (unique squad names, unique player ids).
- `SquadCommands`: the admin commands.
- `ProfileCommands`: the commands a player runs on their own record.
- `Queries`: `free_agents`, `search_player` and `search_role`.
- `Setup`: the six-question `setup` wizard. Time is an integer clock, and
  waiting for a message is a sequence of events. The module also covers the
  role-answer parser and the merge of the finished record.

Behaviour of the code that is easy to misread, and that the model keeps:

- `squad_delete` clears the `squad` key of former members but leaves their
  squad title `role` in place.
- `remove_role` does not check the role against the five positions. An
  unknown role is reported as "not set".
- `free_agents` lists players whose `squad` is absent or exactly `""`.
  `is_free_agent` strips whitespace first, so a squad of `" "` is free for
  one and not for the other (`Queries.WhitespaceSquadIsFreeButNotListed`).
- The `setup` wizard appends `%` to the win rate unconditionally, while
  `set_winrate` and `profile_update` add it only when it is missing
  (`Setup.SetupDoublesPercent`).
- The record `setup` writes has nine keys and no `role`, so a squad title
  the user held is dropped.
- A role line with two or more colons makes the unpacking raise. The
  wizard then ends through its outer exception handler without saving.

## Model

| member | source | states |
|---|---|---|
| Text.Lower | MLBBSquadTracker/db.py:99 | lower-casing keeps the length and maps each character on its own, so comparisons of lower-cased names are position by position |
| Text.LowerIdempotent | MLBBSquadTracker/db.py:99 | lower-casing a lower-cased name changes nothing, so a stored lower-cased key is found again by a lower-cased query |
| Text.LowerOfUpper | MLBBSquadTracker/db.py:99 | an upper-cased name lower-cases to the same key as the name itself, so case-insensitive lookups do not see the case a user typed |
| Text.Strip | MLBBSquadTracker/db.py:152 | the stripped text is a slice of the original with only whitespace before and after it, starts and ends with a non-space, and is empty exactly when the original is all whitespace |
| Text.StripIdempotent | commands.py:418-419 | stripping an already stripped key or hero list changes nothing |
| Text.WithPercent | commands.py:601-602 | the stored win rate always ends with `%`; a value already ending with `%` is kept as is, otherwise exactly one `%` is appended after the unchanged value |
| Text.WithPercentIdempotent | commands.py:663-664 | applying the `%` rule to its own result changes nothing, so re-running `set_winrate` with the stored value keeps it |
| Text.ContainsIff | commands.py:1006-1009 | Python's substring test holds exactly when the term occurs at some position of the text |
| Text.Count | commands.py:416-417 | the number of separators is zero exactly when the separator does not occur, and never exceeds the length |
| Text.Split | commands.py:415-417 | splitting yields one more piece than there are separators, and no piece contains the separator |
| Text.JoinSplit | commands.py:415 | joining the pieces of a split with the same separator gives back the original text |
| Text.SplitJoin | commands.py:415 | splitting the join of separator-free pieces gives back those pieces |
| Seqs.FirstIndex | MLBBSquadTracker/db.py:98-101 | the index returned is the first element satisfying the test, and no index is returned exactly when no element satisfies it |
| Seqs.Filter | commands.py:971-973 | the comprehension keeps, in their original order and with their multiplicities, exactly the elements that pass the test |
| Seqs.FilterAllOrNothing | commands.py:971-973 | a filter that keeps everything returns the list and one that keeps nothing returns the empty list |
| Db.Normalise | MLBBSquadTracker/db.py:67-77 | a back-filled record holds all five defaulted keys, keeps its identity fields and squad title, and an already complete record is unchanged |
| Db.NormaliseFillsOnlyAbsent | MLBBSquadTracker/db.py:67-77 | each present key keeps its value, and each absent key gets its default ("Unranked", an empty map, "Unknown", "Not specified", ""); `role` is never added |
| Db.NormaliseIdempotent | MLBBSquadTracker/db.py:67-77 | back-filling twice is back-filling once |
| Db.LoadPlayers | MLBBSquadTracker/db.py:61-81 | a missing or unreadable file gives the empty list; otherwise the list keeps its length and order and every record comes out back-filled |
| Db.LoadPlayersIdempotent | MLBBSquadTracker/db.py:61-81 | saving a loaded list and loading it again yields the same list |
| Db.LoadSquads | MLBBSquadTracker/db.py:35-47 | a missing or unreadable file gives the empty list; otherwise the records are returned unchanged |
| Db.FindSquadByName | MLBBSquadTracker/db.py:95-101 | the result is absent exactly when no squad name equals the query up to case; otherwise it is the first squad whose name does |
| Db.FindSquadByNameIgnoresCase | MLBBSquadTracker/db.py:95-101 | two queries equal up to case find the same squad |
| Db.FindSquadByNameUpper | MLBBSquadTracker/db.py:95-101 | the upper-cased query finds the same squad as the query itself |
| Db.PlayerIndex | MLBBSquadTracker/db.py:104-110 | the position returned holds the first record with the id, and none is returned exactly when no record has it |
| Db.FindPlayerById | MLBBSquadTracker/db.py:104-110 | the result is absent exactly when no record has the id; otherwise it is a record of the list with that id and no earlier record has it |
| Db.FindPlayerByUsername | MLBBSquadTracker/db.py:113-119 | the result is absent exactly when no user name equals the query up to case; otherwise it is the first record whose name does |
| Db.FindPlayerByMlbbId | MLBBSquadTracker/db.py:122-128 | the game id is compared exactly; the result is the first record with it, or absent exactly when there is none |
| Db.FindSquadMembers | MLBBSquadTracker/db.py:131-144 | an unknown squad gives no result, distinct from an empty one; otherwise the members are exactly the players whose squad equals the stored squad name up to case, in list order and with their multiplicities |
| Db.IsFreeAgent | MLBBSquadTracker/db.py:147-152 | an unknown id is not a free agent; a known one is exactly when its squad (absent read as empty) is all whitespace |
| Db.LoadKeepsLookup | MLBBSquadTracker/db.py:61-81 | reloading a saved list finds, for every id, the back-filled form of the record found before, and finds nothing where nothing was found |
| Db.PlayerIndexSameIds | MLBBSquadTracker/db.py:104-110 | an edit that keeps every id at its position leaves the id lookup pointing at the same position |
| Db.FindAfterEdit | commands.py:605-608 | replacing the looked-up record by one with the same id makes the lookup return the new record, edits no other position and keeps ids unique |
| SquadCommands.SquadCreate | commands.py:98-118 | a name already used up to case is refused; otherwise exactly one squad is appended with the name as typed, the description (default "No description provided"), the creator and the message time, the old squads stay in front, and unique names stay unique |
| SquadCommands.SquadCreateThenFind | commands.py:103-118 | a created squad is found under any casing of its name, and creating it again under any casing is refused |
| SquadCommands.SquadUpdate | commands.py:130-148 | an unknown squad is refused; otherwise only the description of the first squad matching the name changes, every other squad is unchanged, and the squad is still found |
| SquadCommands.DropSquads | commands.py:164 | the kept squads are exactly those whose lower-cased name differs from the key, in their original order and with their multiplicities |
| SquadCommands.FilterKeepsUniqueNames | commands.py:164 | removing squads from a list with unique names leaves the names unique |
| SquadCommands.DropMemberships | commands.py:166-169 | exactly the players whose squad matches the key lose the `squad` key; every other record and every id is unchanged |
| SquadCommands.SquadDelete | commands.py:152-177 | an unknown squad is refused; otherwise no squad with the name remains, every other squad remains in order and with its multiplicity, and exactly its members lose the `squad` key but keep their squad title |
| SquadCommands.SquadDeleteFreesMembers | commands.py:166-174 | after a deletion each former member is a free agent, both in the saved list and after reloading it, and keeps the rest of the record |
| SquadCommands.AddMember | commands.py:181-236 | an unknown squad, or an unknown user without both game ids, is refused; a known player gets the `squad` key set to the name as typed, the squad title (default "Member") and only the game ids supplied, an id not supplied keeping its old value, with nothing else changed; an unknown user is appended with all profile defaults and the same `squad` key |
| SquadCommands.AddMemberJoinsSquad | commands.py:204-236 | a member added to a squad is listed by `find_squad_members` for that squad |
| SquadCommands.RemoveMember | commands.py:254-279 | the checks fire in the order squad exists, user registered, user in that squad up to case; on success exactly that record loses `squad` and `role` and the player is a free agent |
| SquadCommands.UpdateMember | commands.py:286-324 | the checks fire in the order registered, field one of four (any case), squad exists unless the value is "none" (any case); on success only that record changes, and "none" removes both `squad` and `role` |
| SquadCommands.UpdateMemberJoinsSquad | commands.py:307-318 | moving a member into an existing squad, with the field name `squad` in any letter case, makes `find_squad_members` list them for it |
| ProfileCommands.Register | commands.py:462-482 | an id that already has a record is refused; otherwise one record with only the four identity keys is appended, the old records stay in front, and the new player is a free agent |
| ProfileCommands.RegisterTwiceRefused | commands.py:467-472 | registering again after a successful registration is refused, whatever the new details |
| ProfileCommands.ProfileUpdate | commands.py:569-608 | the checks fire in the order registered, then field one of five (any case); only the author's first record changes, in that one field, and a stored win rate ends with `%` |
| ProfileCommands.ProfileUpdateIdempotent | commands.py:601-608 | repeating the same profile update leaves the list as the first one left it |
| ProfileCommands.SetRank | commands.py:616-636 | an unregistered author is refused; otherwise only the author's rank changes and it is stored verbatim |
| ProfileCommands.SetWinRate | commands.py:644-668 | an unregistered author is refused; otherwise only the author's win rate changes and it ends with `%` |
| ProfileCommands.SetWinRateIdempotent | commands.py:663-667 | repeating `set_winrate` with the same value leaves the list as the first call left it |
| ProfileCommands.SetAvailability | commands.py:676-696 | an unregistered author is refused; otherwise only the author's availability changes and it is stored verbatim |
| ProfileCommands.SetRankIsProfileUpdate | commands.py:616-636 | `set_rank` has the same effect as `profile_update` on `max_rank` |
| ProfileCommands.SetWinRateIsProfileUpdate | commands.py:644-668 | `set_winrate` has the same effect as `profile_update` on `win_rate` |
| ProfileCommands.SetAvailabilityIsProfileUpdate | commands.py:676-696 | `set_availability` has the same effect as `profile_update` on `availability` |
| ProfileCommands.AddRole | commands.py:704-735 | the checks fire in the order registered, then position one of five (any case); on success the position set gains exactly the lower-cased role, which maps to the heroes, and other positions keep their heroes |
| ProfileCommands.RemoveRole | commands.py:745-770 | the checks fire in the order registered, some position set, this position set; on success the position set loses exactly that position and keeps the heroes of the others, and the `roles` key stays present even when it empties |
| ProfileCommands.AddThenRemoveRole | commands.py:704-770 | removing a position right after adding it succeeds and leaves exactly the positions held before, minus that one |
| ProfileCommands.JoinSquad | commands.py:776-799 | the checks fire in the order registered, not already in a squad, squad exists; on success the squad returned is the first in the list with the requested name up to case, the one `find_squad_by_name` finds |
| ProfileCommands.LeaveSquad | commands.py:862-885 | the checks fire in the order registered, then in a squad; on success exactly that record loses `squad` and `role` and the player is a free agent |
| ProfileCommands.LeaveThenLeaveOrJoin | commands.py:776-885 | after leaving, a second leave is refused as "not in a squad", and `join_squad` no longer refuses the player as unregistered or already in a squad |
| Queries.FreeAgents | commands.py:966-973 | the result holds exactly the players whose squad is absent or empty, in list order and with their multiplicities |
| Queries.FreeAgentsAllOrNone | commands.py:971-973 | when nobody has a squad the whole list is returned, and when everybody has a non-empty one the result is empty |
| Queries.FreeAgentsAreFree | commands.py:966-973 | every listed free agent also passes `is_free_agent` |
| Queries.WhitespaceSquadIsFreeButNotListed | commands.py:971-973 | a player whose squad is a single space passes `is_free_agent` but is not listed by `free_agents` |
| Queries.SearchPlayer | commands.py:996-1013 | the result holds each matching player once per occurrence, in list order: the lower-cased term occurs in a lower-cased name, or the term equals the game id |
| Queries.SearchPlayerFindsOccurrence | commands.py:1004-1009 | any player with the lower-cased term at some position of a lower-cased name is found |
| Queries.SearchPlayerHit | commands.py:1004-1009 | every player found is in the list and either has the term as game id or has the lower-cased term at the returned position of a lower-cased name |
| Queries.SearchPlayerIgnoresNameCase | commands.py:1002-1009 | searching with the upper-cased term finds the same players, except through the case-sensitive game id |
| Queries.SearchRole | commands.py:1062-1078 | a role outside the five positions is refused; otherwise the result is exactly the players listing that position, in list order and with their multiplicities |
| Queries.AddRoleThenSearch | commands.py:704-735 | after `add_role` the player is found by `search_role` for that position |
| Queries.AddRemoveRoleThenSearch | commands.py:745-770 | with unique ids, after adding and then removing a position the player is no longer found by `search_role` for it |
| Setup.ParseLine | commands.py:416-420 | a line with two or more colons raises; a line with one colon whose stripped, lower-cased left part is a valid position sets it to the stripped right part; any other line changes nothing |
| Setup.ParseLines | commands.py:414-420 | the loop raises exactly when some line has two or more colons, and otherwise only valid positions are keys |
| Setup.ParseRoles | commands.py:413-420 | parsing the answer fails exactly when one of its lines has two or more colons, and otherwise yields a map over the five positions only |
| Setup.ParseLinesLastWins | commands.py:414-420 | the loop agrees with the reference reading: a position is set exactly when some line names it, and its heroes come from the last line that does |
| Setup.ParseRolesLastWins | commands.py:413-420 | for the whole answer, the map holds exactly the positions some line names, each with the heroes of the last such line |
| Setup.TwoColonsFail | commands.py:416-417 | a one-line answer with two colons makes parsing fail |
| Setup.CarriedSquad | commands.py:432 | the new record keeps the user's stored squad, and an empty squad when there is no record |
| Setup.SetupRecord | commands.py:423-433 | the record has the five answers in their fields, the win rate with one `%` appended, the parsed positions, the carried squad, no squad title, nine keys, and is fully back-filled |
| Setup.MergeSetup | commands.py:435-440 | after the merge the lookup finds the new record, every record with its id is the new record, every other record is kept and none is added; for an existing id each record keeps its position and is replaced exactly when it has the id, and a new id is appended |
| Setup.Limit | commands.py:351-411 | the first five questions wait 60 seconds and the roles question 120 |
| Setup.Start | commands.py:328-333 | the wizard starts waiting for the first answer, at the current time, on the freshly loaded list |
| Setup.Finish | commands.py:413-440 | after the roles answer the wizard fails exactly when parsing raises, and otherwise completes with the merged list |
| Setup.Step | commands.py:351-411 | an event at or past the deadline times the wizard out; a message from anyone else or elsewhere changes nothing; an answer to the first five questions is recorded and restarts the clock; the sixth answer in time ends the wizard as `Finish` does, and only it can complete the wizard |
| Setup.RunTerminal | commands.py:452-459 | a finished, timed-out or failed wizard ignores every later event |
| Setup.RunIgnoresOthers | commands.py:352-356 | messages that are not the user's answers and arrive in time leave the wizard waiting with the same clock |
| Setup.LateFirstEventTimesOut | commands.py:452-455 | an event at or past the deadline ends the wizard for good without saving |
| Setup.SetupSaves | commands.py:423-440 | whatever the events, a completed wizard has saved the user's record with the carried squad, a `%` win rate and valid positions, and has kept every other user's record without adding any |
| Setup.TimelyAnswersCollect | commands.py:351-401 | timely answers to the first five questions are recorded in order with the clock at the last answer |
| Setup.HappyPath | commands.py:347-440 | six timely answers either fail on the roles answer or complete with the record built from the first five answers and the parsed roles, merged into the loaded list |
| Setup.SetupDoublesPercent | commands.py:390 | an answer of `65%` is stored as `65%%`, while the `%` rule of `set_winrate` keeps `65%` |

## Left out

- Discord I/O is not modelled: messages, embeds, prompts and the text of replies. Each reply becomes an `Error` constructor or a returned list. The display-only commands `profile` (commands.py:498), `squads` (commands.py:898) and `squad_info` (commands.py:925) only read the lists and render embeds. They change nothing, and they are not modelled.
- Writing the JSON files is not modelled. `save_players` and `save_squads` are taken to succeed, and a handler's result is the list it would save.
- The reload in `find_player_by_id` is not followed. `remove_member`, `update_member`, `remove_role` and `leave_squad` edit the record of a freshly reloaded list but save the list loaded earlier, so in the bot the edit never reaches the file. The model edits the handler's own snapshot, which is the evident intent.
- The admin permission check `has_permission` is not modelled: it reads the Discord guild. The admin commands are modelled from the point where it has passed.
- The request `join_squad` posts in the invoking channel is not modelled (commands.py:801-856). It mentions up to three guild members who are administrators, hold the moderator role or own the server. It is Discord messaging, and only the checks before it are modelled (`ProfileCommands.JoinSquad`).
- `random_hero` is not modelled: it draws a random hero. `help_mlbb` is not modelled: it only renders text.
- The bot's start-up is not modelled (MLBBSquadTracker/bot.py, MLBBSquadTracker/main.py). It reads the token from the environment and runs a keep-alive web server on a thread, which is process and network I/O.
- Concurrency between handlers is not modelled. Each handler runs against its own snapshot.
- `load_squads` logs records without a name. The log line is not modelled; the records are returned unchanged, as in the code.
- Squad records without a `name` key are not modelled: `Squad.name` is a required field. In the bot such a record makes `find_squad_by_name` (MLBBSquadTracker/db.py:99), `squad_update` (commands.py:136) and `squad_delete` (commands.py:164) raise `KeyError`. That failure path is not modelled.
- Letter case and whitespace are ASCII only: `Text.Lower`, `Text.Upper` and `Text.Strip` do not model Unicode case mapping or Unicode whitespace beyond code points 9-13 and 28-32.
- `wait_for` runs on a real clock. Here the clock is an integer, and an event at exactly the deadline counts as late.
- Exceptions raised by Discord calls inside `setup` are not modelled. The only exception modelled is the one from unpacking a role line.

=== FILE: db.dfy ===
/** The registry's data model and its lookup layer (MLBBSquadTracker/db.py).

    The bot keeps two JSON lists, squads and players. Here each list is a
    sequence of immutable records; a player's optional dictionary keys are
    `Option` fields, so "key absent" (after a `pop`) and "key present with an
    empty string" stay distinct, as they are in the source.

    The source's lookups each reload the file; the model passes the one
    snapshot the calling handler works on instead. */
module Db {
  import opened Wrappers
  import opened Text
  import opened Seqs

  datatype Squad = Squad(
    name: string,          // unique up to letter case
    description: string,
    createdBy: int,        // user id of the creating admin
    createdAt: string)     // ISO timestamp, kept opaque

  /** One player record. `id`, `username`, `mlbbId` and `mlbbUsername` are
      written by every path that creates a record; the other keys may be
      absent. `role` is the player's title inside a squad, `roles` maps a
      preferred in-game position to a free-text hero list. */
  datatype Player = Player(
    id: int,
    username: string,
    mlbbId: string,
    mlbbUsername: string,
    squad: Option<string>,
    role: Option<string>,
    maxRank: Option<string>,
    winRate: Option<string>,
    availability: Option<string>,
    roles: Option<map<string, string>>)

  /** Why a command handler stopped without saving. */
  datatype Error =
    | SquadNotFound
    | DuplicateSquad
    | NotRegistered
    | AlreadyRegistered
    | MissingGameIds      // add_member for an unknown user without both game ids
    | NotInSquad          // remove_member for a player of another squad
    | InvalidField
    | InvalidRole
    | NoRolesSet
    | RoleNotSet
    | AlreadyInSquad      // join_squad while a squad is set
    | NotInAnySquad       // leave_squad while no squad is set

  const DefaultMaxRank := "Unranked"
  const DefaultWinRate := "Unknown"
  const DefaultAvailability := "Not specified"

  /** The five preferred positions a player may list heroes for. */
  const ValidRoles: set<string> := {"gold", "exp", "mid", "jungle", "roam"}

  /** `player.get("squad", "")`. On a loaded snapshot the key is always
      present, so this is also what `player["squad"]` reads there. */
  function SquadOf(p: Player): string {
    p.squad.GetOr("")
  }

  /** Case-insensitive string equality, `a.lower() == b.lower()`. */
  predicate SameName(a: string, b: string) {
    Lower(a) == Lower(b)
  }

  /** Number of keys the player's dictionary holds. */
  function KeyCount(p: Player): nat {
    4 + (if p.squad.Some? then 1 else 0) + (if p.role.Some? then 1 else 0)
      + (if p.maxRank.Some? then 1 else 0) + (if p.winRate.Some? then 1 else 0)
      + (if p.availability.Some? then 1 else 0) + (if p.roles.Some? then 1 else 0)
  }

  /* ------------------------------------------------------------- loading */

  /** Every key `load_players` back-fills is present. */
  predicate Normalised(p: Player) {
    p.maxRank.Some? && p.roles.Some? && p.winRate.Some? && p.availability.Some? && p.squad.Some?
  }

  /** The back-filling `load_players` applies to each record. */
  function Normalise(p: Player): (r: Player)
    ensures Normalised(r)
    ensures Normalised(p) ==> r == p
    ensures r.id == p.id && r.username == p.username
    ensures r.mlbbId == p.mlbbId && r.mlbbUsername == p.mlbbUsername
    ensures r.role == p.role
  {
    p.(maxRank := Some(p.maxRank.GetOr(DefaultMaxRank)),
       roles := Some(p.roles.GetOr(map[])),
       winRate := Some(p.winRate.GetOr(DefaultWinRate)),
       availability := Some(p.availability.GetOr(DefaultAvailability)),
       squad := Some(p.squad.GetOr("")))
  }

  /** Back-filling touches only absent keys: a present key keeps its value,
      an absent one gets its documented default, and `role` is never added. */
  lemma NormaliseFillsOnlyAbsent(p: Player)
    ensures p.maxRank.Some? ==> Normalise(p).maxRank == p.maxRank
    ensures p.maxRank.None? ==> Normalise(p).maxRank == Some("Unranked")
    ensures p.roles.Some? ==> Normalise(p).roles == p.roles
    ensures p.roles.None? ==> Normalise(p).roles == Some(map[])
    ensures p.winRate.Some? ==> Normalise(p).winRate == p.winRate
    ensures p.winRate.None? ==> Normalise(p).winRate == Some("Unknown")
    ensures p.availability.Some? ==> Normalise(p).availability == p.availability
    ensures p.availability.None? ==> Normalise(p).availability == Some("Not specified")
    ensures p.squad.Some? ==> Normalise(p).squad == p.squad
    ensures p.squad.None? ==> Normalise(p).squad == Some("")
    ensures Normalise(p).role == p.role
  {
  }

  /** Normalising twice is normalising once. */
  lemma NormaliseIdempotent(p: Player)
    ensures Normalise(Normalise(p)) == Normalise(p)
  {
  }

  /** `load_players`: `None` stands for a missing or unreadable file, which
      yields the empty list; otherwise every record is back-filled, in order. */
  function LoadPlayers(stored: Option<seq<Player>>): (r: seq<Player>)
    ensures stored.None? ==> r == []
    ensures stored.Some? ==> |r| == |stored.value|
    ensures stored.Some? ==> forall i :: 0 <= i < |r| ==> r[i] == Normalise(stored.value[i])
    ensures forall i :: 0 <= i < |r| ==> Normalised(r[i])
  {
    match stored
    case None => []
    case Some(ps) => seq(|ps|, i requires 0 <= i < |ps| => Normalise(ps[i]))
  }

  /** Saving what was loaded and loading it again yields the same list. */
  lemma LoadPlayersIdempotent(stored: Option<seq<Player>>)
    ensures LoadPlayers(Some(LoadPlayers(stored))) == LoadPlayers(stored)
  {
  }

  /** `load_squads`: the empty list on failure, the records unchanged otherwise
      (a record without a name is only logged). */
  function LoadSquads(stored: Option<seq<Squad>>): (r: seq<Squad>)
    ensures stored.None? ==> r == []
    ensures stored.Some? ==> r == stored.value
  {
    stored.GetOr([])
  }

  /* ------------------------------------------------------------- lookups */

  /** Index of the first squad whose lower-cased name is `key`. */
  function SquadIndex(squads: seq<Squad>, key: string): (r: Option<nat>)
    ensures r.Some? ==> r.value < |squads| && Lower(squads[r.value].name) == key
    ensures r.Some? ==> forall j :: 0 <= j < r.value ==> Lower(squads[j].name) != key
    ensures r.None? <==> forall j :: 0 <= j < |squads| ==> Lower(squads[j].name) != key
  {
    FirstIndex(squads, (s: Squad) => Lower(s.name) == key)
  }

  /** `find_squad_by_name`: the first squad whose name equals `name` up to
      letter case, or `None`. */
  function FindSquadByName(squads: seq<Squad>, name: string): (r: Option<Squad>)
    ensures r.None? <==> forall j :: 0 <= j < |squads| ==> !SameName(squads[j].name, name)
    ensures r.Some? ==> exists i :: 0 <= i < |squads| && squads[i] == r.value
                          && SameName(r.value.name, name)
                          && forall j :: 0 <= j < i ==> !SameName(squads[j].name, name)
  {
    match SquadIndex(squads, Lower(name))
    case None => None
    case Some(i) => Some(squads[i])
  }

  /** The lookup sees only the lower-cased query: queries that agree up to
      letter case find the same squad. */
  lemma FindSquadByNameIgnoresCase(squads: seq<Squad>, a: string, b: string)
    requires SameName(a, b)
    ensures FindSquadByName(squads, a) == FindSquadByName(squads, b)
  {
  }

  /** In particular the upper-cased query finds what the query itself finds. */
  lemma FindSquadByNameUpper(squads: seq<Squad>, name: string)
    ensures FindSquadByName(squads, Upper(name)) == FindSquadByName(squads, name)
  {
    LowerOfUpper(name);
  }

  /** Index of the first player with this user id. */
  function PlayerIndex(players: seq<Player>, id: int): (r: Option<nat>)
    ensures r.Some? ==> r.value < |players| && players[r.value].id == id
    ensures r.Some? ==> forall j :: 0 <= j < r.value ==> players[j].id != id
    ensures r.None? <==> forall j :: 0 <= j < |players| ==> players[j].id != id
  {
    FirstIndex(players, (p: Player) => p.id == id)
  }

  /** `find_player_by_id`: the first player with this id, or `None`. */
  function FindPlayerById(players: seq<Player>, id: int): (r: Option<Player>)
    ensures r.None? <==> forall j :: 0 <= j < |players| ==> players[j].id != id
    ensures r.Some? ==> r.value.id == id && r.value in players
    ensures r.Some? ==> exists i :: 0 <= i < |players| && players[i] == r.value
                          && forall j :: 0 <= j < i ==> players[j].id != id
  {
    match PlayerIndex(players, id)
    case None => None
    case Some(i) => Some(players[i])
  }

  /** `find_player_by_username`: the first player whose user name equals
      `username` up to letter case, or `None`. */
  function FindPlayerByUsername(players: seq<Player>, username: string): (r: Option<Player>)
    ensures r.None? <==> forall j :: 0 <= j < |players| ==> !SameName(players[j].username, username)
    ensures r.Some? ==> exists i :: 0 <= i < |players| && players[i] == r.value
                          && SameName(r.value.username, username)
                          && forall j :: 0 <= j < i ==> !SameName(players[j].username, username)
  {
    var key := Lower(username);
    match FirstIndex(players, (p: Player) => Lower(p.username) == key)
    case None => None
    case Some(i) => Some(players[i])
  }

  /** `find_player_by_mlbb_id`: the first player with exactly this game id
      (no case folding), or `None`. */
  function FindPlayerByMlbbId(players: seq<Player>, mlbbId: string): (r: Option<Player>)
    ensures r.None? <==> forall j :: 0 <= j < |players| ==> players[j].mlbbId != mlbbId
    ensures r.Some? ==> exists i :: 0 <= i < |players| && players[i] == r.value
                          && r.value.mlbbId == mlbbId
                          && forall j :: 0 <= j < i ==> players[j].mlbbId != mlbbId
  {
    match FirstIndex(players, (p: Player) => p.mlbbId == mlbbId)
    case None => None
    case Some(i) => Some(players[i])
  }

  /** Does the player's squad name equal `key` once lower-cased? */
  predicate InSquadKey(p: Player, key: string) {
    Lower(SquadOf(p)) == key
  }

  /** `find_squad_members`: `None` when the squad does not exist (distinct
      from an existing squad without members); otherwise the players whose
      squad equals the STORED squad name up to letter case, in list order. */
  function FindSquadMembers(squads: seq<Squad>, players: seq<Player>, name: string)
    : (r: Option<seq<Player>>)
    ensures r.None? <==> FindSquadByName(squads, name).None?
    ensures r.Some? ==> forall p :: p in r.value <==>
                          p in players && SameName(SquadOf(p), FindSquadByName(squads, name).value.name)
    ensures r.Some? ==> IsSubsequence(r.value, players)
    ensures r.Some? ==> forall p :: multiset(r.value)[p]
                          == if SameName(SquadOf(p), FindSquadByName(squads, name).value.name) then multiset(players)[p] else 0
  {
    match FindSquadByName(squads, name)
    case None => None
    case Some(s) =>
      var key := Lower(s.name);
      Some(Filter(players, (p: Player) => InSquadKey(p, key)))
  }

  /** `is_free_agent`: false for an unknown id; otherwise true exactly when
      the first matching player's squad consists of whitespace only. */
  function IsFreeAgent(players: seq<Player>, id: int): (r: bool)
    ensures FindPlayerById(players, id).None? ==> !r
    ensures FindPlayerById(players, id).Some? ==>
              (r <==> AllSpace(SquadOf(FindPlayerById(players, id).value)))
  {
    match FindPlayerById(players, id)
    case None => false
    case Some(p) => Strip(SquadOf(p)) == []
  }

  /** A known player whose squad is empty is a free agent. */
  lemma EmptySquadIsFree(players: seq<Player>, id: int)
    requires FindPlayerById(players, id).Some? && SquadOf(FindPlayerById(players, id).value) == ""
    ensures IsFreeAgent(players, id)
  {
    assert AllSpace("");
  }

  /** Loading finds, for each id, the back-filled form of the record found before. */
  lemma LoadKeepsLookup(players: seq<Player>, id: int)
    ensures FindPlayerById(players, id).None? ==> FindPlayerById(LoadPlayers(Some(players)), id).None?
    ensures FindPlayerById(players, id).Some? ==>
              FindPlayerById(LoadPlayers(Some(players)), id) == Some(Normalise(FindPlayerById(players, id).value))
  {
    var loaded := LoadPlayers(Some(players));
    assert SameIds(players, loaded);
    PlayerIndexSameIds(players, loaded, id);
  }

  /* ------------------------------------------------------------ invariants */

  /** No two squads have names equal up to letter case. */
  predicate UniqueSquadNames(squads: seq<Squad>) {
    forall i, j :: 0 <= i < j < |squads| ==> Lower(squads[i].name) != Lower(squads[j].name)
  }

  /** No two player records share a user id. */
  predicate UniqueIds(players: seq<Player>) {
    forall i, j :: 0 <= i < j < |players| ==> players[i].id != players[j].id
  }

  /** Two snapshots with the same ids at the same positions. */
  predicate SameIds(a: seq<Player>, b: seq<Player>) {
    |a| == |b| && forall i :: 0 <= i < |a| ==> a[i].id == b[i].id
  }

  /** `after` differs from `before` at most at position `i`. */
  predicate EditsOnly(before: seq<Player>, after: seq<Player>, i: nat) {
    |after| == |before| && i < |before|
    && forall j :: 0 <= j < |before| && j != i ==> after[j] == before[j]
  }

  /** An edit that keeps every id in place leaves id lookups pointing at the
      same position. */
  lemma PlayerIndexSameIds(a: seq<Player>, b: seq<Player>, id: int)
    requires SameIds(a, b)
    ensures PlayerIndex(a, id) == PlayerIndex(b, id)
  {
    var ia, ib := PlayerIndex(a, id), PlayerIndex(b, id);
    if ia.Some? && ib.Some? {
      assert a[ib.value].id == id;
      assert b[ia.value].id == id;
    }
  }

  /** Replacing the first record with this id by one with the same id makes
      the lookup return the new record. */
  lemma FindAfterEdit(players: seq<Player>, id: int, q: Player)
    requires PlayerIndex(players, id).Some?
    requires q.id == id
    ensures var i := PlayerIndex(players, id).value;
            FindPlayerById(players[i := q], id) == Some(q)
            && SameIds(players, players[i := q])
            && EditsOnly(players, players[i := q], i)
            && (UniqueIds(players) ==> UniqueIds(players[i := q]))
  {
    var i := PlayerIndex(players, id).value;
    PlayerIndexSameIds(players, players[i := q], id);
  }

  /** Appending a record whose id nobody has: the lookup finds it and ids stay unique. */
  lemma AppendNewId(players: seq<Player>, q: Player)
    requires FindPlayerById(players, q.id).None?
    ensures FindPlayerById(players + [q], q.id) == Some(q)
    ensures UniqueIds(players) ==> UniqueIds(players + [q])
  {
    var s := players + [q];
    assert s[|players|].id == q.id;
    assert forall j :: 0 <= j < |players| ==> s[j] == players[j];
  }
}

=== FILE: profile_commands.dfy ===
/** The data logic of the commands a player runs on their own record
    (commands.py): `register`, `profile_update`, `set_rank`, `set_winrate`,
    `set_availability`, `add_role`, `remove_role`, the checks of
    `join_squad`, and `leave_squad`. Every command but `register` first
    requires the author to be registered; the commands that edit change
    only the author's first record.

    `remove_role` and `leave_squad` edit the record returned by
    `find_player_by_id`, which comes from a fresh reload, and then save the
    list loaded at the start of the handler, which does not hold that edit.
    The model follows the evident intent and edits the handler's snapshot. */
module ProfileCommands {
  import opened Wrappers
  import opened Text
  import opened Db

  /** Fields `profile_update` may write. */
  const ProfileFields: set<string> := {"mlbb_id", "mlbb_username", "max_rank", "win_rate", "availability"}

  /** `register`: refuses an id that already has a record; otherwise appends
      a record holding only the four identity keys (the profile defaults are
      back-filled by the next load, and the new player is a free agent). */
  function Register(players: seq<Player>, authorId: int, authorName: string,
                    mlbbId: string, mlbbUsername: string): (r: Result<seq<Player>, Error>)
    ensures r.Err? <==> FindPlayerById(players, authorId).Some?
    ensures r.Err? ==> r.error == AlreadyRegistered
    ensures r.Ok? ==> |r.value| == |players| + 1 && r.value[..|players|] == players
    ensures r.Ok? ==> var q := FindPlayerById(r.value, authorId);
              && q.Some? && KeyCount(q.value) == 4
              && q.value.username == authorName
              && q.value.mlbbId == mlbbId && q.value.mlbbUsername == mlbbUsername
              && IsFreeAgent(r.value, authorId)
    ensures r.Ok? && UniqueIds(players) ==> UniqueIds(r.value)
  {
    if FindPlayerById(players, authorId).Some? then Err(AlreadyRegistered)
    else
      var q := Player(authorId, authorName, mlbbId, mlbbUsername, None, None, None, None, None, None);
      AppendNewId(players, q);
      Ok(players + [q])
  }

  /** Registering a second time is refused, whatever the new details. */
  lemma RegisterTwiceRefused(players: seq<Player>, authorId: int, authorName: string,
                             mlbbId: string, mlbbUsername: string,
                             name2: string, id2: string, user2: string)
    requires Register(players, authorId, authorName, mlbbId, mlbbUsername).Ok?
    ensures Register(Register(players, authorId, authorName, mlbbId, mlbbUsername).value,
                     authorId, name2, id2, user2) == Err(AlreadyRegistered)
  {
  }

  /** The record `profile_update` writes for a lower-cased, whitelisted field. */
  function SetProfileField(p: Player, field: string, value: string): Player {
    if field == "win_rate" then p.(winRate := Some(WithPercent(value)))
    else if field == "max_rank" then p.(maxRank := Some(value))
    else if field == "availability" then p.(availability := Some(value))
    else if field == "mlbb_id" then p.(mlbbId := value)
    else p.(mlbbUsername := value)
  }

  /** `profile_update`. Checks, in order: registered, then the lower-cased
      field is one of the five profile fields. A win rate gets a `%` suffix
      unless it already ends with one; every other value is stored verbatim. */
  function ProfileUpdate(players: seq<Player>, authorId: int, field: string, value: string)
    : (r: Result<seq<Player>, Error>)
    ensures r == Err(NotRegistered) <==> FindPlayerById(players, authorId).None?
    ensures r == Err(InvalidField) <==>
              FindPlayerById(players, authorId).Some? && Lower(field) !in ProfileFields
    ensures r.Err? ==> r.error in {NotRegistered, InvalidField}
    ensures r.Ok? ==> EditsOnly(players, r.value, PlayerIndex(players, authorId).value)
    ensures r.Ok? ==> var before := FindPlayerById(players, authorId).value;
              var f := Lower(field);
              FindPlayerById(r.value, authorId) == Some(
                if f == "win_rate" then before.(winRate := Some(WithPercent(value)))
                else if f == "max_rank" then before.(maxRank := Some(value))
                else if f == "availability" then before.(availability := Some(value))
                else if f == "mlbb_id" then before.(mlbbId := value)
                else before.(mlbbUsername := value))
    ensures r.Ok? && Lower(field) == "win_rate" ==>
              var w := FindPlayerById(r.value, authorId).value.winRate;
              w.Some? && EndsWith(w.value, '%')
    ensures r.Ok? && UniqueIds(players) ==> UniqueIds(r.value)
  {
    match PlayerIndex(players, authorId)
    case None => Err(NotRegistered)
    case Some(i) =>
      var f := Lower(field);
      if f !in ProfileFields then Err(InvalidField)
      else
        var q := SetProfileField(players[i], f, value);
        FindAfterEdit(players, authorId, q);
        Ok(players[i := q])
  }

  /** Running the same `profile_update` twice has the effect of running it
      once; for a win rate this is the `%` rule being idempotent. */
  lemma {:induction false} ProfileUpdateIdempotent(players: seq<Player>, authorId: int,
                                                   field: string, value: string)
    requires ProfileUpdate(players, authorId, field, value).Ok?
    ensures var once := ProfileUpdate(players, authorId, field, value).value;
            ProfileUpdate(once, authorId, field, value) == Ok(once)
  {
    var once := ProfileUpdate(players, authorId, field, value).value;
    var i := PlayerIndex(players, authorId).value;
    PlayerIndexSameIds(players, once, authorId);
    WithPercentIdempotent(value);
    var f := Lower(field);
    assert SetProfileField(once[i], f, value) == once[i];
    assert once[i := once[i]] == once;
  }

  /** `set_rank`: stores the rank verbatim. */
  function SetRank(players: seq<Player>, authorId: int, rank: string): (r: Result<seq<Player>, Error>)
    ensures r.Err? <==> FindPlayerById(players, authorId).None?
    ensures r.Err? ==> r.error == NotRegistered
    ensures r.Ok? ==> EditsOnly(players, r.value, PlayerIndex(players, authorId).value)
    ensures r.Ok? ==> FindPlayerById(r.value, authorId)
                        == Some(FindPlayerById(players, authorId).value.(maxRank := Some(rank)))
  {
    match PlayerIndex(players, authorId)
    case None => Err(NotRegistered)
    case Some(i) =>
      var q := players[i].(maxRank := Some(rank));
      FindAfterEdit(players, authorId, q);
      Ok(players[i := q])
  }

  /** `set_winrate`: stores the value with the `%` rule. */
  function SetWinRate(players: seq<Player>, authorId: int, winRate: string)
    : (r: Result<seq<Player>, Error>)
    ensures r.Err? <==> FindPlayerById(players, authorId).None?
    ensures r.Err? ==> r.error == NotRegistered
    ensures r.Ok? ==> EditsOnly(players, r.value, PlayerIndex(players, authorId).value)
    ensures r.Ok? ==> FindPlayerById(r.value, authorId)
                        == Some(FindPlayerById(players, authorId).value.(winRate := Some(WithPercent(winRate))))
    ensures r.Ok? ==> var w := FindPlayerById(r.value, authorId).value.winRate.value;
              EndsWith(w, '%') && w[..|winRate|] == winRate
              && (EndsWith(winRate, '%') ==> w == winRate)
  {
    match PlayerIndex(players, authorId)
    case None => Err(NotRegistered)
    case Some(i) =>
      var q := players[i].(winRate := Some(WithPercent(winRate)));
      FindAfterEdit(players, authorId, q);
      Ok(players[i := q])
  }

  /** Setting the win rate to "65" or to "65%" stores "65%" either way, and
      repeating the command changes nothing. */
  lemma SetWinRateIdempotent(players: seq<Player>, authorId: int, winRate: string)
    requires SetWinRate(players, authorId, winRate).Ok?
    ensures var once := SetWinRate(players, authorId, winRate).value;
            && SetWinRate(once, authorId, winRate) == Ok(once)
            && SetWinRate(players, authorId, WithPercent(winRate)) == Ok(once)
  {
    var once := SetWinRate(players, authorId, winRate).value;
    var i := PlayerIndex(players, authorId).value;
    PlayerIndexSameIds(players, once, authorId);
    WithPercentIdempotent(winRate);
    assert once[i := once[i]] == once;
  }

  /** `set_availability`: stores the schedule verbatim. */
  function SetAvailability(players: seq<Player>, authorId: int, availability: string)
    : (r: Result<seq<Player>, Error>)
    ensures r.Err? <==> FindPlayerById(players, authorId).None?
    ensures r.Err? ==> r.error == NotRegistered
    ensures r.Ok? ==> EditsOnly(players, r.value, PlayerIndex(players, authorId).value)
    ensures r.Ok? ==> FindPlayerById(r.value, authorId)
                        == Some(FindPlayerById(players, authorId).value.(availability := Some(availability)))
  {
    match PlayerIndex(players, authorId)
    case None => Err(NotRegistered)
    case Some(i) =>
      var q := players[i].(availability := Some(availability));
      FindAfterEdit(players, authorId, q);
      Ok(players[i := q])
  }

  /** `set_rank` is `profile_update max_rank`. */
  lemma SetRankIsProfileUpdate(players: seq<Player>, authorId: int, value: string)
    ensures SetRank(players, authorId, value) == ProfileUpdate(players, authorId, "max_rank", value)
  {
    LowerOfLowerCase("max_rank");
    match PlayerIndex(players, authorId)
    case None =>
    case Some(i) =>
      assert SetProfileField(players[i], "max_rank", value) == players[i].(maxRank := Some(value));
  }

  /** `set_winrate` is `profile_update win_rate`, `%` rule included. */
  lemma SetWinRateIsProfileUpdate(players: seq<Player>, authorId: int, value: string)
    ensures SetWinRate(players, authorId, value) == ProfileUpdate(players, authorId, "win_rate", value)
  {
    LowerOfLowerCase("win_rate");
    match PlayerIndex(players, authorId)
    case None =>
    case Some(i) =>
      assert SetProfileField(players[i], "win_rate", value) == players[i].(winRate := Some(WithPercent(value)));
  }

  /** `set_availability` is `profile_update availability`. */
  lemma SetAvailabilityIsProfileUpdate(players: seq<Player>, authorId: int, value: string)
    ensures SetAvailability(players, authorId, value) == ProfileUpdate(players, authorId, "availability", value)
  {
    LowerOfLowerCase("availability");
    match PlayerIndex(players, authorId)
    case None =>
    case Some(i) =>
      assert SetProfileField(players[i], "availability", value) == players[i].(availability := Some(value));
  }

  /** The player's preferred positions, an absent key read as empty. */
  function RolesOf(p: Player): map<string, string> {
    p.roles.GetOr(map[])
  }

  /** `add_role`. Checks, in order: registered, then the lower-cased role is
      one of the five positions. The hero list is stored verbatim under the
      lower-cased role, replacing any earlier entry; other positions stay. */
  function AddRole(players: seq<Player>, authorId: int, role: string, heroes: string)
    : (r: Result<seq<Player>, Error>)
    ensures r == Err(NotRegistered) <==> FindPlayerById(players, authorId).None?
    ensures r == Err(InvalidRole) <==>
              FindPlayerById(players, authorId).Some? && Lower(role) !in ValidRoles
    ensures r.Err? ==> r.error in {NotRegistered, InvalidRole}
    ensures r.Ok? ==> EditsOnly(players, r.value, PlayerIndex(players, authorId).value)
    ensures r.Ok? ==> FindPlayerById(r.value, authorId).Some?
    ensures r.Ok? ==> var before := FindPlayerById(players, authorId).value;
              var after := FindPlayerById(r.value, authorId).value;
              && after == before.(roles := after.roles)
              && after.roles.Some?
              && RolesOf(after).Keys == RolesOf(before).Keys + {Lower(role)}
              && RolesOf(after)[Lower(role)] == heroes
              && forall k :: k in RolesOf(before) && k != Lower(role) ==> RolesOf(after)[k] == RolesOf(before)[k]
    ensures r.Ok? && UniqueIds(players) ==> UniqueIds(r.value)
  {
    match PlayerIndex(players, authorId)
    case None => Err(NotRegistered)
    case Some(i) =>
      if Lower(role) !in ValidRoles then Err(InvalidRole)
      else
        var p := players[i];
        var q := p.(roles := Some(RolesOf(p)[Lower(role) := heroes]));
        FindAfterEdit(players, authorId, q);
        Ok(players[i := q])
  }

  /** `remove_role`. Checks, in order: registered, the player has at least
      one preferred position, the lower-cased role is one of them. The role
      is not checked against the five positions. */
  function RemoveRole(players: seq<Player>, authorId: int, role: string)
    : (r: Result<seq<Player>, Error>)
    ensures r == Err(NotRegistered) <==> FindPlayerById(players, authorId).None?
    ensures r == Err(NoRolesSet) <==>
              FindPlayerById(players, authorId).Some? && RolesOf(FindPlayerById(players, authorId).value) == map[]
    ensures r == Err(RoleNotSet) <==>
              FindPlayerById(players, authorId).Some?
              && RolesOf(FindPlayerById(players, authorId).value) != map[]
              && Lower(role) !in RolesOf(FindPlayerById(players, authorId).value)
    ensures r.Err? ==> r.error in {NotRegistered, NoRolesSet, RoleNotSet}
    ensures r.Ok? ==> EditsOnly(players, r.value, PlayerIndex(players, authorId).value)
    ensures r.Ok? ==> FindPlayerById(r.value, authorId).Some?
    ensures r.Ok? ==> var before := FindPlayerById(players, authorId).value;
              var after := FindPlayerById(r.value, authorId).value;
              && after == before.(roles := after.roles)
              && after.roles.Some?
              && RolesOf(after).Keys == RolesOf(before).Keys - {Lower(role)}
              && Lower(role) in RolesOf(before)
              && forall k :: k in RolesOf(after) ==> RolesOf(after)[k] == RolesOf(before)[k]
    ensures r.Ok? && UniqueIds(players) ==> UniqueIds(r.value)
  {
    match PlayerIndex(players, authorId)
    case None => Err(NotRegistered)
    case Some(i) =>
      var p := players[i];
      if RolesOf(p) == map[] then Err(NoRolesSet)
      else if Lower(role) !in RolesOf(p) then Err(RoleNotSet)
      else
        var q := p.(roles := Some(RolesOf(p) - {Lower(role)}));
        FindAfterEdit(players, authorId, q);
        Ok(players[i := q])
  }

  /** Removing a position right after adding it succeeds, and leaves the
      record without that position and otherwise as `add_role` found it. */
  lemma AddThenRemoveRole(players: seq<Player>, authorId: int, role: string, heroes: string)
    requires AddRole(players, authorId, role, heroes).Ok?
    ensures var added := AddRole(players, authorId, role, heroes).value;
            var removed := RemoveRole(added, authorId, role);
            var before := FindPlayerById(players, authorId).value;
            && removed.Ok?
            && FindPlayerById(removed.value, authorId).Some?
            && Lower(role) !in RolesOf(FindPlayerById(removed.value, authorId).value)
            && RolesOf(FindPlayerById(removed.value, authorId).value) == RolesOf(before) - {Lower(role)}
  {
    var key := Lower(role);
    var i := PlayerIndex(players, authorId).value;
    var p := players[i];
    var q := p.(roles := Some(RolesOf(p)[key := heroes]));
    var added := AddRoleAt(players, authorId, role, heroes);
    assert added[i] == q && key in RolesOf(q);
    RemoveAddedRole(added, authorId, role, i);
    OverwriteThenRemove(RolesOf(p), key, heroes);
  }

  /** Removing a key just written drops whatever the key held before. */
  lemma OverwriteThenRemove(m: map<string, string>, key: string, v: string)
    ensures m[key := v] - {key} == m - {key}
  {
  }

  /** `remove_role` on a snapshot whose record for the author holds the role. */
  lemma RemoveAddedRole(added: seq<Player>, authorId: int, role: string, i: nat)
    requires PlayerIndex(added, authorId) == Some(i)
    requires Lower(role) in RolesOf(added[i])
    ensures RemoveRole(added, authorId, role).Ok?
    ensures FindPlayerById(RemoveRole(added, authorId, role).value, authorId)
              == Some(added[i].(roles := Some(RolesOf(added[i]) - {Lower(role)})))
  {
    var removed := RemoveRoleAt(added, authorId, role);
    FindAfterEdit(added, authorId, added[i].(roles := Some(RolesOf(added[i]) - {Lower(role)})));
  }

  /** What a successful `add_role` does to the snapshot, position by position. */
  lemma AddRoleAt(players: seq<Player>, authorId: int, role: string, heroes: string)
    returns (added: seq<Player>)
    requires AddRole(players, authorId, role, heroes).Ok?
    ensures added == AddRole(players, authorId, role, heroes).value
    ensures var i := PlayerIndex(players, authorId).value;
            var p := players[i];
            && added == players[i := p.(roles := Some(RolesOf(p)[Lower(role) := heroes]))]
            && PlayerIndex(added, authorId) == Some(i)
  {
    added := AddRole(players, authorId, role, heroes).value;
    PlayerIndexSameIds(players, added, authorId);
  }

  /** What a successful `remove_role` does to the snapshot, position by position. */
  lemma RemoveRoleAt(players: seq<Player>, authorId: int, role: string)
    returns (removed: seq<Player>)
    requires PlayerIndex(players, authorId).Some?
    requires Lower(role) in RolesOf(players[PlayerIndex(players, authorId).value])
    ensures RemoveRole(players, authorId, role) == Ok(removed)
    ensures var i := PlayerIndex(players, authorId).value;
            var p := players[i];
            removed == players[i := p.(roles := Some(RolesOf(p) - {Lower(role)}))]
  {
    var i := PlayerIndex(players, authorId).value;
    var p := players[i];
    removed := players[i := p.(roles := Some(RolesOf(p) - {Lower(role)}))];
  }

  /** The checks `join_squad` makes before notifying the admins, in order:
      registered, not already in a squad (a present, non-empty `squad`), the
      squad exists. On success the squad found is returned. */
  function JoinSquad(squads: seq<Squad>, players: seq<Player>, authorId: int, squadName: string)
    : (r: Result<Squad, Error>)
    ensures r == Err(NotRegistered) <==> FindPlayerById(players, authorId).None?
    ensures r == Err(AlreadyInSquad) <==>
              FindPlayerById(players, authorId).Some? && SquadOf(FindPlayerById(players, authorId).value) != ""
    ensures r == Err(SquadNotFound) <==>
              FindPlayerById(players, authorId).Some? && SquadOf(FindPlayerById(players, authorId).value) == ""
              && FindSquadByName(squads, squadName).None?
    ensures r.Err? ==> r.error in {NotRegistered, AlreadyInSquad, SquadNotFound}
    ensures r.Ok? ==> SameName(r.value.name, squadName) && r.value in squads
    ensures r.Ok? ==> Some(r.value) == FindSquadByName(squads, squadName)
  {
    match FindPlayerById(players, authorId)
    case None => Err(NotRegistered)
    case Some(p) =>
      if p.squad.Some? && p.squad.value != "" then Err(AlreadyInSquad)
      else match FindSquadByName(squads, squadName)
        case None => Err(SquadNotFound)
        case Some(s) => Ok(s)
  }

  /** `leave_squad`. Checks, in order: registered, then a present, non-empty
      `squad`. Then both `squad` and `role` are removed. */
  function LeaveSquad(players: seq<Player>, authorId: int): (r: Result<seq<Player>, Error>)
    ensures r == Err(NotRegistered) <==> FindPlayerById(players, authorId).None?
    ensures r == Err(NotInAnySquad) <==>
              FindPlayerById(players, authorId).Some? && SquadOf(FindPlayerById(players, authorId).value) == ""
    ensures r.Err? ==> r.error in {NotRegistered, NotInAnySquad}
    ensures r.Ok? ==> EditsOnly(players, r.value, PlayerIndex(players, authorId).value)
    ensures r.Ok? ==> FindPlayerById(r.value, authorId)
                        == Some(FindPlayerById(players, authorId).value.(squad := None, role := None))
    ensures r.Ok? ==> IsFreeAgent(r.value, authorId)
    ensures r.Ok? && UniqueIds(players) ==> UniqueIds(r.value)
  {
    match PlayerIndex(players, authorId)
    case None => Err(NotRegistered)
    case Some(i) =>
      if SquadOf(players[i]) == "" then Err(NotInAnySquad)
      else
        var q := players[i].(squad := None, role := None);
        FindAfterEdit(players, authorId, q);
        Ok(players[i := q])
  }

  /** Leaving twice: the second attempt is refused, and after leaving the
      player may ask to join a squad again. */
  lemma LeaveThenLeaveOrJoin(squads: seq<Squad>, players: seq<Player>, authorId: int, squadName: string)
    requires LeaveSquad(players, authorId).Ok?
    ensures var left := LeaveSquad(players, authorId).value;
            && LeaveSquad(left, authorId) == Err(NotInAnySquad)
            && JoinSquad(squads, left, authorId, squadName) != Err(AlreadyInSquad)
            && JoinSquad(squads, left, authorId, squadName) != Err(NotRegistered)
  {
  }
}

=== FILE: queries.dfy ===
/** The read-only commands of commands.py: `free_agents`, `search_player`
    and `search_role`. Each keeps, in list order, the players that pass a
    test; the rendering of the result is outside the model. */
module Queries {
  import opened Wrappers
  import opened Text
  import opened Seqs
  import opened Db
  import opened ProfileCommands

  /** The `free_agents` test: `squad` absent or empty (no whitespace trimming). */
  predicate Unassigned(p: Player) {
    p.squad.None? || p.squad == Some("")
  }

  /** `free_agents`: the players with no squad, in order. */
  function FreeAgents(players: seq<Player>): (r: seq<Player>)
    ensures forall p :: p in r <==> p in players && SquadOf(p) == ""
    ensures IsSubsequence(r, players)
    ensures forall p :: multiset(r)[p] == if Unassigned(p) then multiset(players)[p] else 0
  {
    Filter(players, Unassigned)
  }

  /** When nobody has a squad `free_agents` lists everyone, and when
      everybody has one it lists nobody. */
  lemma FreeAgentsAllOrNone(players: seq<Player>)
    ensures (forall i :: 0 <= i < |players| ==> Unassigned(players[i])) ==> FreeAgents(players) == players
    ensures (forall i :: 0 <= i < |players| ==> !Unassigned(players[i])) ==> FreeAgents(players) == []
  {
    FilterAllOrNothing(players, Unassigned);
  }

  /** Anyone `free_agents` lists is a free agent for `is_free_agent` too. */
  lemma FreeAgentsAreFree(players: seq<Player>, id: int)
    requires FindPlayerById(players, id).Some?
    requires FindPlayerById(players, id).value in FreeAgents(players)
    ensures IsFreeAgent(players, id)
  {
  }

  /** The converse fails: `is_free_agent` trims whitespace and `free_agents`
      does not, so a player whose squad is a single space counts as free for
      one and not for the other. */
  lemma WhitespaceSquadIsFreeButNotListed(p: Player)
    requires p.squad == Some(" ")
    ensures IsFreeAgent([p], p.id)
    ensures FreeAgents([p]) == []
  {
    assert IsSpace(" "[0]);
    assert !Unassigned(p);
  }

  /** The `search_player` test: the lower-cased term occurs in the lower-cased
      user name or game name, or the term equals the game id exactly. */
  predicate MatchesTerm(p: Player, term: string) {
    Contains(Lower(p.username), Lower(term))
    || Contains(Lower(p.mlbbUsername), Lower(term))
    || term == p.mlbbId
  }

  /** The test as a closure over the term. */
  function MatchesTermOf(term: string): Player -> bool {
    (p: Player) => MatchesTerm(p, term)
  }

  /** `search_player`: each matching player once, in list order (the
      `if`/`elif` chain appends a player at most once). */
  function SearchPlayer(players: seq<Player>, term: string): (r: seq<Player>)
    ensures forall p :: p in r <==> p in players && MatchesTerm(p, term)
    ensures IsSubsequence(r, players)
    ensures forall p :: multiset(r)[p] == if MatchesTerm(p, term) then multiset(players)[p] else 0
  {
    Filter(players, MatchesTermOf(term))
  }

  /** Any player in the list whose lower-cased user name or game name has
      the lower-cased term at some position `i` is found by the search. */
  lemma SearchPlayerFindsOccurrence(players: seq<Player>, term: string, p: Player, i: nat)
    requires p in players
    requires OccursAt(Lower(p.username), Lower(term), i) || OccursAt(Lower(p.mlbbUsername), Lower(term), i)
    ensures p in SearchPlayer(players, term)
  {
    if OccursAt(Lower(p.username), Lower(term), i) {
      OccurrenceContains(Lower(p.username), Lower(term), i);
    } else {
      OccurrenceContains(Lower(p.mlbbUsername), Lower(term), i);
    }
  }

  /** Conversely, every player the search returns is in the list and either
      has the game id equal to the term or has the lower-cased term at the
      returned position `i` of one of its lower-cased names. */
  lemma SearchPlayerHit(players: seq<Player>, term: string, p: Player) returns (i: nat)
    requires p in SearchPlayer(players, term)
    ensures p in players
    ensures term == p.mlbbId
            || OccursAt(Lower(p.username), Lower(term), i)
            || OccursAt(Lower(p.mlbbUsername), Lower(term), i)
  {
    if Contains(Lower(p.username), Lower(term)) {
      i := ContainsHasOccurrence(Lower(p.username), Lower(term));
    } else if Contains(Lower(p.mlbbUsername), Lower(term)) {
      i := ContainsHasOccurrence(Lower(p.mlbbUsername), Lower(term));
    } else {
      i := 0;
    }
  }

  /** Searching with a differently cased term finds the same players, except
      through the game id, which is compared exactly. */
  lemma SearchPlayerIgnoresNameCase(players: seq<Player>, term: string)
    ensures forall p :: p in players && p.mlbbId != term && p.mlbbId != Upper(term) ==>
              (p in SearchPlayer(players, term) <==> p in SearchPlayer(players, Upper(term)))
  {
    LowerOfUpper(term);
  }

  /** The `search_role` test for the lower-cased role `key`. */
  predicate HasRole(p: Player, key: string) {
    p.roles.Some? && p.roles.value != map[] && key in p.roles.value
  }

  function HasRoleOf(key: string): Player -> bool {
    (p: Player) => HasRole(p, key)
  }

  /** `search_role`: refuses a role outside the five positions; otherwise the
      players listing that position, in order. */
  function SearchRole(players: seq<Player>, role: string): (r: Result<seq<Player>, Error>)
    ensures r.Err? <==> Lower(role) !in ValidRoles
    ensures r.Err? ==> r.error == InvalidRole
    ensures r.Ok? ==> forall p :: p in r.value <==> p in players && Lower(role) in RolesOf(p)
    ensures r.Ok? ==> IsSubsequence(r.value, players)
    ensures r.Ok? ==> forall p :: multiset(r.value)[p]
                        == if Lower(role) in RolesOf(p) then multiset(players)[p] else 0
  {
    if Lower(role) !in ValidRoles then Err(InvalidRole)
    else Ok(Filter(players, HasRoleOf(Lower(role))))
  }

  /** After `add_role` the player is found by `search_role` for that position. */
  lemma AddRoleThenSearch(players: seq<Player>, authorId: int, role: string, heroes: string)
    requires AddRole(players, authorId, role, heroes).Ok?
    ensures var added := AddRole(players, authorId, role, heroes).value;
            && SearchRole(added, role).Ok?
            && FindPlayerById(added, authorId).value in SearchRole(added, role).value
  {
    var added := AddRole(players, authorId, role, heroes).value;
    var q := FindPlayerById(added, authorId).value;
    assert Lower(role) in RolesOf(q);
  }

  /** Adding a position and removing it again: when ids are unique, the
      player is no longer found by `search_role` for that position. */
  lemma AddRemoveRoleThenSearch(players: seq<Player>, authorId: int, role: string, heroes: string)
    requires UniqueIds(players)
    requires AddRole(players, authorId, role, heroes).Ok?
    ensures var added := AddRole(players, authorId, role, heroes).value;
            var removed := RemoveRole(added, authorId, role);
            && removed.Ok?
            && SearchRole(removed.value, role).Ok?
            && forall p :: p in SearchRole(removed.value, role).value ==> p.id != authorId
  {
    AddThenRemoveRole(players, authorId, role, heroes);
    var added := AddRole(players, authorId, role, heroes).value;
    var removed := RemoveRole(added, authorId, role).value;
    assert UniqueIds(removed);
    var i := PlayerIndex(removed, authorId).value;
    assert Lower(role) !in RolesOf(removed[i]);
    forall p | p in SearchRole(removed, role).value ensures p.id != authorId {
      var k :| 0 <= k < |removed| && removed[k] == p;
      assert Lower(role) in RolesOf(removed[k]);
      assert k != i;
      assert removed[i].id == authorId;
    }
  }
}

=== FILE: seqs.dfy ===
/** The two list patterns every lookup and query of the bot is built from: a
    `for … in …: if …: return` scan that stops at the first hit, and a list
    comprehension `[x for x in xs if …]` that keeps the hits in order. */
module Seqs {
  import opened Wrappers

  /** Index of the first element satisfying `f`, or `None` when none does. */
  function FirstIndex<T>(s: seq<T>, f: T -> bool): (r: Option<nat>)
    ensures r.Some? ==> r.value < |s| && f(s[r.value])
    ensures r.Some? ==> forall j :: 0 <= j < r.value ==> !f(s[j])
    ensures r.None? <==> forall j :: 0 <= j < |s| ==> !f(s[j])
  {
    if s == [] then None
    else if f(s[0]) then Some(0)
    else match FirstIndex(s[1..], f)
      case None => None
      case Some(k) => Some(k + 1)
  }

  /** `a` can be obtained from `b` by deleting elements, i.e. `a` keeps
      `b`'s order. */
  predicate IsSubsequence<T(==)>(a: seq<T>, b: seq<T>)
    decreases |b|
  {
    if a == [] then true
    else if b == [] then false
    else if a[0] == b[0] then IsSubsequence(a[1..], b[1..])
    else IsSubsequence(a, b[1..])
  }

  /** The elements of `s` satisfying `f`, in their original order and with
      their original multiplicity. */
  function Filter<T(==,!new)>(s: seq<T>, f: T -> bool): (r: seq<T>)
    ensures forall x :: x in r <==> x in s && f(x)
    ensures forall x :: multiset(r)[x] == if f(x) then multiset(s)[x] else 0
    ensures IsSubsequence(r, s)
    ensures |r| <= |s|
  {
    if s == [] then []
    else
      var rest := Filter(s[1..], f);
      assert s == [s[0]] + s[1..];
      if f(s[0]) then [s[0]] + rest else rest
  }

  /** A filter that keeps everything is the identity, and one that keeps
      nothing is empty. */
  lemma {:induction false} FilterAllOrNothing<T(!new)>(s: seq<T>, f: T -> bool)
    ensures (forall i :: 0 <= i < |s| ==> f(s[i])) ==> Filter(s, f) == s
    ensures (forall i :: 0 <= i < |s| ==> !f(s[i])) ==> Filter(s, f) == []
  {
    if s != [] {
      FilterAllOrNothing(s[1..], f);
      if forall i :: 0 <= i < |s| ==> f(s[i]) {
        assert forall i :: 0 <= i < |s[1..]| ==> f(s[1..][i]) by {
          forall i | 0 <= i < |s[1..]| ensures f(s[1..][i]) { assert s[1..][i] == s[i + 1]; }
        }
        assert [s[0]] + s[1..] == s;
      }
      if forall i :: 0 <= i < |s| ==> !f(s[i]) {
        assert forall i :: 0 <= i < |s[1..]| ==> !f(s[1..][i]) by {
          forall i | 0 <= i < |s[1..]| ensures !f(s[1..][i]) { assert s[1..][i] == s[i + 1]; }
        }
      }
    }
  }
}

=== FILE: setup.dfy ===
/** The `setup` profile wizard of commands.py.

    The wizard asks six questions in turn and waits for each answer with a
    deadline: 60 seconds for the first five, 120 for the last. Only messages
    from the invoking user in the invoking channel count as answers; other
    messages are ignored and do not restart the clock. The sixth answer is
    parsed into a role map. The finished record then either replaces the
    user's record or is appended to the list. A missed deadline ends the
    wizard without saving. A role line with more than one colon ends it too:
    unpacking that line raises, and the outer handler catches the exception.

    Time is an abstract integer clock (seconds). Waiting for a message
    becomes a sequence of events. The rendering of the prompts and the save
    to disk are left out. */
module Setup {
  import opened Wrappers
  import opened Text
  import opened Db

  /* --------------------------------------------------------- role parsing */

  /** A line that takes part in parsing: one colon exactly. A line without a
      colon is skipped, and one with two or more makes the wizard fail. */
  predicate IsEntry(line: string) {
    Count(line, ':') == 1
  }

  /** The position of an entry line: its left part, stripped and lower-cased. */
  function EntryKey(line: string): string
    requires IsEntry(line)
  {
    Lower(Strip(Split(line, ':')[0]))
  }

  /** The heroes of an entry line: its right part, stripped. */
  function EntryValue(line: string): string
    requires IsEntry(line)
  {
    Strip(Split(line, ':')[1])
  }

  /** The line is an entry for the valid position `key`. */
  predicate EntryFor(line: string, key: string) {
    IsEntry(line) && key in ValidRoles && EntryKey(line) == key
  }

  /** One line of the loop body applied to the map built so far. */
  function ParseLine(line: string, acc: map<string, string>): (r: Option<map<string, string>>)
    ensures r.None? <==> Count(line, ':') >= 2
    ensures r.Some? ==> forall k :: k in r.value <==> k in acc || EntryFor(line, k)
    ensures r.Some? ==> forall k :: EntryFor(line, k) ==> r.value[k] == EntryValue(line)
    ensures r.Some? ==> forall k :: k in acc && !EntryFor(line, k) ==> r.value[k] == acc[k]
  {
    if ':' !in line then Some(acc)
    else if Count(line, ':') >= 2 then None
    else
      var key := EntryKey(line);
      if key in ValidRoles then Some(acc[key := EntryValue(line)]) else Some(acc)
  }

  /** The loop over the lines, left to right; `None` when a line raised. */
  function ParseLines(lines: seq<string>, acc: map<string, string>): (r: Option<map<string, string>>)
    ensures r.None? <==> exists i :: 0 <= i < |lines| && Count(lines[i], ':') >= 2
    ensures r.Some? && acc.Keys <= ValidRoles ==> r.value.Keys <= ValidRoles
  {
    if lines == [] then Some(acc)
    else
      RaisingLineCons(lines);
      match ParseLine(lines[0], acc)
      case None => None
      case Some(next) => ParseLines(lines[1..], next)
  }

  /** A line of a non-empty list raises iff the first one does or one of the rest does. */
  lemma RaisingLineCons(lines: seq<string>)
    requires lines != []
    ensures (exists i :: 0 <= i < |lines| && Count(lines[i], ':') >= 2)
            <==> Count(lines[0], ':') >= 2 || exists i :: 0 <= i < |lines[1..]| && Count(lines[1..][i], ':') >= 2
  {
    if exists i :: 0 <= i < |lines| && Count(lines[i], ':') >= 2 {
      var i :| 0 <= i < |lines| && Count(lines[i], ':') >= 2;
      if i > 0 {
        assert lines[1..][i - 1] == lines[i];
      }
    }
    if exists i :: 0 <= i < |lines[1..]| && Count(lines[1..][i], ':') >= 2 {
      var i :| 0 <= i < |lines[1..]| && Count(lines[1..][i], ':') >= 2;
      assert lines[i + 1] == lines[1..][i];
    }
  }

  /** The role map of the last answer, or `None` when parsing raised. */
  function ParseRoles(text: string): (r: Option<map<string, string>>)
    ensures r.None? <==> exists line :: line in Split(text, '\n') && Count(line, ':') >= 2
    ensures r.Some? ==> r.value.Keys <= ValidRoles
  {
    var lines := Split(text, '\n');
    SomeLineRaises(lines);
    ParseLines(lines, map[])
  }

  /** The two ways of saying that a line raises: by position and by membership. */
  lemma SomeLineRaises(lines: seq<string>)
    ensures (exists i :: 0 <= i < |lines| && Count(lines[i], ':') >= 2)
            <==> exists line :: line in lines && Count(line, ':') >= 2
  {
    if exists line :: line in lines && Count(line, ':') >= 2 {
      var line :| line in lines && Count(line, ':') >= 2;
      var i :| 0 <= i < |lines| && lines[i] == line;
    }
  }

  /** Reference reading of the role answer: the value for `key` is given by
      the last entry line for it, and later lines override earlier ones. */
  function LastEntry(lines: seq<string>, key: string): Option<string> {
    if lines == [] then None
    else
      var later := LastEntry(lines[1..], key);
      if later.Some? then later
      else if EntryFor(lines[0], key) then Some(EntryValue(lines[0]))
      else None
  }

  /** The loop agrees with the reference reading: a position is in the
      result iff some line gives it or it was already there. Its value is
      the one from the last line that gives it, and otherwise the earlier one. */
  lemma {:induction false} ParseLinesLastWins(lines: seq<string>, acc: map<string, string>, key: string)
    requires ParseLines(lines, acc).Some?
    ensures var r := ParseLines(lines, acc).value;
            && (key in r <==> LastEntry(lines, key).Some? || key in acc)
            && (LastEntry(lines, key).Some? ==> r[key] == LastEntry(lines, key).value)
            && (LastEntry(lines, key).None? && key in acc ==> r[key] == acc[key])
  {
    if lines != [] {
      var next := ParseLine(lines[0], acc).value;
      ParseLinesLastWins(lines[1..], next, key);
      if EntryFor(lines[0], key) {
        assert key in next && next[key] == EntryValue(lines[0]);
      } else {
        assert key in next <==> key in acc;
        assert key in acc ==> next[key] == acc[key];
      }
    }
  }

  /** For the whole answer: the role map holds exactly the positions some
      line names, each with the heroes of the last line that names it. */
  lemma ParseRolesLastWins(text: string, key: string)
    requires ParseRoles(text).Some?
    ensures var r := ParseRoles(text).value;
            && (key in r <==> LastEntry(Split(text, '\n'), key).Some?)
            && (key in r ==> r[key] == LastEntry(Split(text, '\n'), key).value)
  {
    ParseLinesLastWins(Split(text, '\n'), map[], key);
  }

  /** A one-line answer with two colons (a time such as `10:30` in the hero
      list) makes the wizard fail. */
  lemma TwoColonsFail(line: string)
    requires Count(line, ':') >= 2
    requires '\n' !in line
    ensures ParseRoles(line).None?
  {
    SplitNoSeparator(line, '\n');
    assert line in Split(line, '\n');
  }

  /* ------------------------------------------------------------ the record */

  /** The invoking user and channel, and the player list loaded when the
      wizard started. */
  datatype Session = Session(authorId: int, authorName: string, channelId: int, snapshot: seq<Player>)

  /** The squad the new record keeps: the stored one when the user already
      has a record holding the key, otherwise the empty string. */
  function CarriedSquad(s: Session): (r: string)
    ensures FindPlayerById(s.snapshot, s.authorId).None? ==> r == ""
    ensures FindPlayerById(s.snapshot, s.authorId).Some? ==>
              r == SquadOf(FindPlayerById(s.snapshot, s.authorId).value)
  {
    match FindPlayerById(s.snapshot, s.authorId)
    case Some(p) => if p.squad.Some? then p.squad.value else ""
    case None => ""
  }

  /** The record the wizard saves, from the five text answers and the role
      map. The win rate gets a `%` appended unconditionally. The record has
      nine keys, so a squad title (`role`) the user held is not carried over. */
  function SetupRecord(s: Session, answers: seq<string>, roles: map<string, string>): (q: Player)
    requires |answers| >= 5
    ensures q.id == s.authorId && q.username == s.authorName
    ensures q.mlbbId == answers[0] && q.mlbbUsername == answers[1]
    ensures q.maxRank == Some(answers[2]) && q.availability == Some(answers[4])
    ensures q.winRate.Some? && |q.winRate.value| == |answers[3]| + 1
    ensures q.winRate.Some? && q.winRate.value[..|answers[3]|] == answers[3] && EndsWith(q.winRate.value, '%')
    ensures q.roles == Some(roles) && q.role.None?
    ensures q.squad == Some(CarriedSquad(s))
    ensures KeyCount(q) == 9 && Normalised(q)
  {
    Player(s.authorId, s.authorName, answers[0], answers[1], Some(CarriedSquad(s)), None,
           Some(answers[2]), Some(answers[3] + "%"), Some(answers[4]), Some(roles))
  }

  /** Every record with the id of `q` replaced by `q`. */
  function ReplaceAll(players: seq<Player>, q: Player): (r: seq<Player>)
    ensures SameIds(players, r)
    ensures forall i :: 0 <= i < |r| ==> r[i] == (if players[i].id == q.id then q else players[i])
  {
    seq(|players|, i requires 0 <= i < |players| => if players[i].id == q.id then q else players[i])
  }

  /** Replacing a record that exists: the lookup finds the new record, every
      other record stays, and nothing else appears. */
  lemma ReplaceExisting(players: seq<Player>, q: Player)
    requires FindPlayerById(players, q.id).Some?
    ensures var r := ReplaceAll(players, q);
            && FindPlayerById(r, q.id) == Some(q)
            && (forall p :: p in r && p.id == q.id ==> p == q)
            && (forall p :: p in players && p.id != q.id ==> p in r)
            && (forall p :: p in r ==> p == q || (p in players && p.id != q.id))
            && (UniqueIds(players) ==> UniqueIds(r))
  {
    var r := ReplaceAll(players, q);
    PlayerIndexSameIds(players, r, q.id);
    var k := PlayerIndex(players, q.id).value;
    assert r[k] == q;
    forall p | p in players && p.id != q.id ensures p in r {
      var i :| 0 <= i < |players| && players[i] == p;
      assert r[i] == p;
    }
  }

  /** Saving the record: every record with its id is replaced when one
      exists, otherwise it is appended. */
  function MergeSetup(players: seq<Player>, q: Player): (r: seq<Player>)
    ensures FindPlayerById(r, q.id) == Some(q)
    ensures forall p :: p in r && p.id == q.id ==> p == q
    ensures forall p :: p in players && p.id != q.id ==> p in r
    ensures forall p :: p in r ==> p == q || (p in players && p.id != q.id)
    ensures FindPlayerById(players, q.id).Some? ==> SameIds(players, r)
    ensures FindPlayerById(players, q.id).Some? ==>
              forall i :: 0 <= i < |r| ==> r[i] == if players[i].id == q.id then q else players[i]
    ensures FindPlayerById(players, q.id).None? ==> r == players + [q]
    ensures UniqueIds(players) ==> UniqueIds(r)
  {
    if FindPlayerById(players, q.id).Some? then
      ReplaceExisting(players, q);
      ReplaceAll(players, q)
    else
      AppendNewId(players, q);
      players + [q]
  }

  /* ----------------------------------------------------------- the wizard */

  /** The deadline of the question `answered` answers in: 60 seconds for the
      first five, 120 for the roles. */
  function Limit(answered: nat): (t: nat)
    ensures answered < 5 ==> t == 60
    ensures answered >= 5 ==> t == 120
  {
    if answered < 5 then 60 else 120
  }

  /** Where the wizard stands. `Completed` carries the list handed to
      `save_players`. `Crashed` is the outer exception handler, which saves
      nothing. */
  datatype Wizard =
    | Awaiting(session: Session, answers: seq<string>, since: int)
    | Completed(players: seq<Player>)
    | TimedOut
    | Crashed

  /** A message in a channel, or time passing with no message. */
  datatype Event =
    | Message(author: int, channel: int, content: string, at: int)
    | Tick(at: int)

  /** The `setup` command at time `now`: it loads the list and asks for the
      game id. */
  function Start(stored: Option<seq<Player>>, authorId: int, authorName: string, channelId: int, now: int): (w: Wizard)
    ensures w.Awaiting? && w.answers == [] && w.since == now
    ensures w.session.snapshot == LoadPlayers(stored)
    ensures w.session.authorId == authorId && w.session.channelId == channelId
  {
    Awaiting(Session(authorId, authorName, channelId, LoadPlayers(stored)), [], now)
  }

  /** The end of the wizard after the roles answer. */
  function Finish(s: Session, answers: seq<string>, text: string): (w: Wizard)
    requires |answers| >= 5
    ensures w.Crashed? <==> ParseRoles(text).None?
    ensures !w.Crashed? ==> w == Completed(MergeSetup(s.snapshot, SetupRecord(s, answers, ParseRoles(text).value)))
  {
    match ParseRoles(text)
    case None => Crashed
    case Some(roles) => Completed(MergeSetup(s.snapshot, SetupRecord(s, answers, roles)))
  }

  /** The wizard's reaction to one event. An event at or after the deadline
      times the wizard out, and a message from someone else or from another
      channel is ignored. An answer moves to the next question and restarts
      the clock. */
  function Step(w: Wizard, e: Event): (r: Wizard)
    ensures !w.Awaiting? ==> r == w
    ensures w.Awaiting? && e.at >= w.since + Limit(|w.answers|) ==> r == TimedOut
    ensures w.Awaiting? && e.at < w.since + Limit(|w.answers|) && !IsAnswer(w.session, e) ==> r == w
    ensures w.Awaiting? && e.at < w.since + Limit(|w.answers|) && IsAnswer(w.session, e) && |w.answers| < 5 ==>
              r == Awaiting(w.session, w.answers + [e.content], e.at)
    ensures w.Awaiting? && e.at < w.since + Limit(|w.answers|) && IsAnswer(w.session, e) && |w.answers| >= 5 ==>
              r == Finish(w.session, w.answers, e.content)
    ensures w.Awaiting? && r.Completed? ==> |w.answers| >= 5 && IsAnswer(w.session, e)
  {
    match w
    case Awaiting(s, answers, since) =>
      if e.at >= since + Limit(|answers|) then TimedOut
      else if !IsAnswer(s, e) then w
      else if |answers| < 5 then Awaiting(s, answers + [e.content], e.at)
      else Finish(s, answers, e.content)
    case _ => w
  }

  /** The `wait_for` check: a message by the invoking user in the invoking channel. */
  predicate IsAnswer(s: Session, e: Event) {
    e.Message? && e.author == s.authorId && e.channel == s.channelId
  }

  /** The wizard after a sequence of events. */
  function Run(w: Wizard, events: seq<Event>): Wizard
    decreases |events|
  {
    if events == [] then w else Run(Step(w, events[0]), events[1..])
  }

  /** Running two sequences one after the other is running their concatenation. */
  lemma {:induction false} RunAppend(w: Wizard, a: seq<Event>, b: seq<Event>)
    ensures Run(w, a + b) == Run(Run(w, a), b)
    decreases |a|
  {
    if a != [] {
      assert (a + b)[0] == a[0];
      assert (a + b)[1..] == a[1..] + b;
      RunAppend(Step(w, a[0]), a[1..], b);
    } else {
      assert a + b == b;
    }
  }

  /** A finished, timed-out or failed wizard ignores every later event. */
  lemma {:induction false} RunTerminal(w: Wizard, events: seq<Event>)
    requires !w.Awaiting?
    ensures Run(w, events) == w
    decreases |events|
  {
    if events != [] {
      RunTerminal(Step(w, events[0]), events[1..]);
    }
  }

  /** Messages that are not answers and arrive before the deadline change
      nothing: the wizard keeps waiting with the same clock. */
  lemma {:induction false} RunIgnoresOthers(w: Wizard, events: seq<Event>)
    requires w.Awaiting?
    requires forall i :: 0 <= i < |events| ==>
               !IsAnswer(w.session, events[i]) && events[i].at < w.since + Limit(|w.answers|)
    ensures Run(w, events) == w
  {
    if events != [] {
      assert Step(w, events[0]) == w;
      assert forall i :: 0 <= i < |events[1..]| ==> events[1..][i] == events[i + 1];
      RunIgnoresOthers(w, events[1..]);
    }
  }

  /** A wizard whose first event comes at or after the deadline has timed
      out for good. */
  lemma LateFirstEventTimesOut(w: Wizard, events: seq<Event>)
    requires w.Awaiting? && events != []
    requires events[0].at >= w.since + Limit(|w.answers|)
    ensures Run(w, events) == TimedOut
  {
    RunTerminal(TimedOut, events[1..]);
  }

  /** What the wizard may be after any events, for a given session: still
      waiting with at most five answers, or done. A completed run saves the
      list with the user's new record. */
  predicate Reachable(s: Session, w: Wizard) {
    match w
    case Awaiting(s1, answers, _) => s1 == s && |answers| <= 5
    case Completed(players) => Saved(s, players)
    case _ => true
  }

  /** The saved list: the user's record is the wizard's record, with the
      carried squad, a `%`-terminated win rate, only valid positions and no
      squad title. Every other user's record is kept, and no record is added
      for anybody else. */
  predicate Saved(s: Session, players: seq<Player>) {
    && FindPlayerById(players, s.authorId).Some?
    && var q := FindPlayerById(players, s.authorId).value;
    && q.username == s.authorName
    && q.squad == Some(CarriedSquad(s))
    && q.role.None?
    && q.roles.Some? && q.roles.value.Keys <= ValidRoles
    && q.winRate.Some? && EndsWith(q.winRate.value, '%')
    && KeyCount(q) == 9
    && (forall p :: p in s.snapshot && p.id != s.authorId ==> p in players)
    && (forall p :: p in players ==> p.id == s.authorId || p in s.snapshot)
    && (UniqueIds(s.snapshot) ==> UniqueIds(players))
  }

  /** One event keeps the wizard within what its session can reach. */
  lemma StepReachable(s: Session, w: Wizard, e: Event)
    requires Reachable(s, w)
    ensures Reachable(s, Step(w, e))
  {
    if w.Awaiting? && Step(w, e).Completed? {
      var roles := ParseRoles(e.content).value;
      var q := SetupRecord(s, w.answers, roles);
      var r := MergeSetup(s.snapshot, q);
      assert Step(w, e) == Completed(r);
      assert FindPlayerById(r, s.authorId) == Some(q);
    }
  }

  /** Every run keeps the wizard within what its session can reach. */
  lemma {:induction false} RunReachable(s: Session, w: Wizard, events: seq<Event>)
    requires Reachable(s, w)
    ensures Reachable(s, Run(w, events))
    decreases |events|
  {
    if events != [] {
      StepReachable(s, w, events[0]);
      RunReachable(s, Step(w, events[0]), events[1..]);
    }
  }

  /** Whatever the events, a `setup` that completes has saved the user's new
      record and left everybody else's in place. */
  lemma SetupSaves(stored: Option<seq<Player>>, authorId: int, authorName: string, channelId: int,
                   now: int, events: seq<Event>)
    ensures var s := Session(authorId, authorName, channelId, LoadPlayers(stored));
            var w := Run(Start(stored, authorId, authorName, channelId, now), events);
            (w.Awaiting? ==> w.session == s && |w.answers| <= 5)
            && (w.Completed? ==> Saved(s, w.players))
  {
    var s := Session(authorId, authorName, channelId, LoadPlayers(stored));
    RunReachable(s, Start(stored, authorId, authorName, channelId, now), events);
  }

  /* ------------------------------------------------------------ happy path */

  /** Each time is before the deadline of its question: the first counted
      from `since` for the question with `answered` answers in, each later
      one from the answer before it. */
  predicate Timely(since: int, answered: nat, times: seq<int>)
    decreases |times|
  {
    times == [] || (times[0] < since + Limit(answered) && Timely(times[0], answered + 1, times[1..]))
  }

  /** The user's answers as messages in the wizard's channel. */
  function Answers(s: Session, contents: seq<string>, times: seq<int>): (r: seq<Event>)
    requires |contents| == |times|
    ensures |r| == |contents|
    ensures forall i :: 0 <= i < |r| ==> IsAnswer(s, r[i]) && r[i].content == contents[i] && r[i].at == times[i]
  {
    seq(|contents|, i requires 0 <= i < |contents| => Message(s.authorId, s.channelId, contents[i], times[i]))
  }

  /** Timely answers to the first five questions are collected in order,
      with the clock at the last answer. */
  lemma {:induction false} TimelyAnswersCollect(s: Session, answers: seq<string>, since: int,
                                                 contents: seq<string>, times: seq<int>)
    requires |contents| == |times| && |answers| + |contents| <= 5
    requires Timely(since, |answers|, times)
    ensures times != [] ==>
              Run(Awaiting(s, answers, since), Answers(s, contents, times))
              == Awaiting(s, answers + contents, times[|times| - 1])
    ensures times == [] ==> Run(Awaiting(s, answers, since), Answers(s, contents, times)) == Awaiting(s, answers, since)
    decreases |times|
  {
    var events := Answers(s, contents, times);
    if times != [] {
      var w := Awaiting(s, answers, since);
      var next := Awaiting(s, answers + [contents[0]], times[0]);
      assert Step(w, events[0]) == next;
      assert events[1..] == Answers(s, contents[1..], times[1..]);
      TimelyAnswersCollect(s, answers + [contents[0]], times[0], contents[1..], times[1..]);
      assert answers + [contents[0]] + contents[1..] == answers + contents;
      if |times| > 1 {
        assert times[1..][|times[1..]| - 1] == times[|times| - 1];
      }
    }
  }

  /** Six timely answers from the user finish the wizard: with the first
      five answers as the profile texts and the sixth parsed as the roles. */
  lemma HappyPath(stored: Option<seq<Player>>, authorId: int, authorName: string, channelId: int,
                  now: int, contents: seq<string>, times: seq<int>)
    requires |contents| == 6 && |times| == 6
    requires Timely(now, 0, times)
    ensures var s := Session(authorId, authorName, channelId, LoadPlayers(stored));
            var w := Run(Start(stored, authorId, authorName, channelId, now), Answers(s, contents, times));
            (ParseRoles(contents[5]).None? ==> w == Crashed)
            && (ParseRoles(contents[5]).Some? ==>
                  w == Completed(MergeSetup(s.snapshot, SetupRecord(s, contents[..5], ParseRoles(contents[5]).value))))
  {
    var s := Session(authorId, authorName, channelId, LoadPlayers(stored));
    var w0 := Start(stored, authorId, authorName, channelId, now);
    var events := Answers(s, contents, times);
    TimelyPrefix(now, 0, times, 5);
    TimelyAnswersCollect(s, [], now, contents[..5], times[..5]);
    assert events == Answers(s, contents[..5], times[..5]) + [events[5]];
    RunAppend(w0, Answers(s, contents[..5], times[..5]), [events[5]]);
    var w5 := Awaiting(s, contents[..5], times[4]);
    assert [] + contents[..5] == contents[..5];
    assert times[..5][4] == times[4];
    assert times[5] < times[4] + 120 by { TimelyAt(now, 0, times, 5); }
    assert Run(w5, [events[5]]) == Step(w5, events[5]);
  }

  /** A prefix of timely answers is timely. */
  lemma {:induction false} TimelyPrefix(since: int, answered: nat, times: seq<int>, n: nat)
    requires Timely(since, answered, times) && n <= |times|
    ensures Timely(since, answered, times[..n])
    decreases n
  {
    if n > 0 {
      TimelyPrefix(times[0], answered + 1, times[1..], n - 1);
      assert times[..n][1..] == times[1..][..n - 1];
    }
  }

  /** In a timely sequence, the answer `k` arrives before the deadline that
      the previous answer started. */
  lemma {:induction false} TimelyAt(since: int, answered: nat, times: seq<int>, k: nat)
    requires Timely(since, answered, times) && 0 < k < |times|
    ensures times[k] < times[k - 1] + Limit(answered + k)
    decreases k
  {
    if k > 1 {
      TimelyAt(times[0], answered + 1, times[1..], k - 1);
    }
  }

  /** The wizard appends `%` without the check `set_winrate` makes: an answer
      of `65%` is stored as `65%%`, where `set_winrate` keeps `65%`. */
  lemma SetupDoublesPercent(s: Session, answers: seq<string>, roles: map<string, string>)
    requires |answers| >= 5 && answers[3] == "65%"
    ensures SetupRecord(s, answers, roles).winRate == Some("65%%")
    ensures WithPercent(answers[3]) == "65%"
  {
    assert EndsWith(answers[3], '%') by { assert answers[3][2] == '%'; }
    assert answers[3] + "%" == "65%%";
  }
}

=== FILE: squad_commands.dfy ===
/** The data logic of the admin commands of commands.py: `squad_create`,
    `squad_update`, `squad_delete`, `add_member`, `remove_member` and
    `update_member`. The permission check that guards them is outside the
    model; each handler here is what runs once it has passed.

    `remove_member` and `update_member` look the player up with
    `find_player_by_id`, which reloads the file, and then save the list the
    handler loaded earlier, so the edit lands on a copy that is never
    written. The model follows the evident intent and edits the record in
    the handler's own snapshot. */
module SquadCommands {
  import opened Wrappers
  import opened Text
  import opened Seqs
  import opened Db

  /** Both collections, for the one command that writes both. */
  datatype Store = Store(squads: seq<Squad>, players: seq<Player>)

  const DefaultDescription := "No description provided"
  const DefaultSquadRole := "Member"

  /** Fields `update_member` may write. */
  const MemberFields: set<string> := {"mlbb_id", "mlbb_username", "role", "squad"}

  /* ---------------------------------------------------------------- squads */

  /** `squad_create`: refuses a name some squad already has up to letter
      case; otherwise appends one squad, with the name as typed, at the end. */
  function SquadCreate(squads: seq<Squad>, name: string, description: Option<string>,
                       author: int, createdAt: string): (r: Result<seq<Squad>, Error>)
    ensures r.Err? <==> exists i :: 0 <= i < |squads| && SameName(squads[i].name, name)
    ensures r.Err? ==> r.error == DuplicateSquad
    ensures r.Ok? ==> |r.value| == |squads| + 1 && r.value[..|squads|] == squads
    ensures r.Ok? ==> r.value[|squads|]
                        == Squad(name, description.GetOr("No description provided"), author, createdAt)
    ensures r.Ok? && UniqueSquadNames(squads) ==> UniqueSquadNames(r.value)
  {
    if FindSquadByName(squads, name).Some? then Err(DuplicateSquad)
    else Ok(squads + [Squad(name, description.GetOr(DefaultDescription), author, createdAt)])
  }

  /** A created squad is found by its name, and creating it again under any
      letter case is refused. */
  lemma SquadCreateThenFind(squads: seq<Squad>, name: string, other: string,
                            description: Option<string>, author: int, createdAt: string)
    requires SquadCreate(squads, name, description, author, createdAt).Ok?
    requires SameName(name, other)
    ensures var s := SquadCreate(squads, name, description, author, createdAt).value;
            && FindSquadByName(s, other) == Some(s[|squads|])
            && SquadCreate(s, other, description, author, createdAt) == Err(DuplicateSquad)
  {
    var s := SquadCreate(squads, name, description, author, createdAt).value;
    assert s[|squads|] == Squad(name, description.GetOr(DefaultDescription), author, createdAt);
    assert SameName(s[|squads|].name, other);
    assert forall j :: 0 <= j < |squads| ==> s[j] == squads[j];
    assert forall j :: 0 <= j < |squads| ==> Lower(s[j].name) != Lower(other);
  }

  /** `squad_update`: sets the description of the first squad whose name
      matches up to letter case; names, creators and order are unchanged. */
  function SquadUpdate(squads: seq<Squad>, name: string, description: string)
    : (r: Result<seq<Squad>, Error>)
    ensures r.Err? <==> FindSquadByName(squads, name).None?
    ensures r.Err? ==> r.error == SquadNotFound
    ensures r.Ok? ==> |r.value| == |squads|
    ensures r.Ok? ==> forall j :: 0 <= j < |squads| ==>
              r.value[j] == squads[j]
              || (SameName(squads[j].name, name) && r.value[j] == squads[j].(description := description))
    ensures r.Ok? ==> var i := SquadIndex(squads, Lower(name)).value;
              forall j :: 0 <= j < |squads| && j != i ==> r.value[j] == squads[j]
    ensures r.Ok? ==> FindSquadByName(r.value, name)
                        == Some(FindSquadByName(squads, name).value.(description := description))
    ensures r.Ok? && UniqueSquadNames(squads) ==> UniqueSquadNames(r.value)
  {
    match SquadIndex(squads, Lower(name))
    case None => Err(SquadNotFound)
    case Some(i) =>
      SquadUpdateAt(squads, name, i, description);
      Ok(squads[i := squads[i].(description := description)])
  }

  /** Changing the description of the first match keeps every name, so the
      lookup still stops at the same position. */
  lemma SquadUpdateAt(squads: seq<Squad>, name: string, i: nat, description: string)
    requires SquadIndex(squads, Lower(name)) == Some(i)
    ensures var s' := squads[i := squads[i].(description := description)];
            && SquadIndex(s', Lower(name)) == Some(i)
            && (UniqueSquadNames(squads) ==> UniqueSquadNames(s'))
  {
    var s' := squads[i := squads[i].(description := description)];
    SameNamesSameIndex(squads, s', Lower(name));
    if UniqueSquadNames(squads) {
      forall a, b | 0 <= a < b < |s'| ensures Lower(s'[a].name) != Lower(s'[b].name) {
        assert s'[a].name == squads[a].name && s'[b].name == squads[b].name;
      }
    }
  }

  /** Two squad lists with the same names position by position agree on
      every name lookup. */
  lemma SameNamesSameIndex(a: seq<Squad>, b: seq<Squad>, key: string)
    requires |a| == |b| && forall j :: 0 <= j < |a| ==> a[j].name == b[j].name
    ensures SquadIndex(a, key) == SquadIndex(b, key)
  {
    assert forall j :: 0 <= j < |a| ==> Lower(a[j].name) == Lower(b[j].name);
    var ia, ib := SquadIndex(a, key), SquadIndex(b, key);
    if ia.Some? && ib.Some? {
      assert Lower(a[ib.value].name) == key;
      assert Lower(b[ia.value].name) == key;
    }
  }

  /** The test `squad_delete` keeps a squad by. */
  function KeepSquad(key: string): Squad -> bool {
    (s: Squad) => Lower(s.name) != key
  }

  /** The squads left when every squad named `key` (lower-cased) is dropped. */
  function DropSquads(squads: seq<Squad>, key: string): (r: seq<Squad>)
    ensures forall s :: s in r <==> s in squads && Lower(s.name) != key
    ensures forall j :: 0 <= j < |r| ==> Lower(r[j].name) != key
    ensures IsSubsequence(r, squads)
    ensures forall s :: multiset(r)[s] == if Lower(s.name) != key then multiset(squads)[s] else 0
    ensures UniqueSquadNames(squads) ==> UniqueSquadNames(r)
  {
    DropSquadsFacts(squads, key);
    Filter(squads, KeepSquad(key))
  }

  /** Reads `Filter`'s contract for the test `squad_delete` keeps squads by. */
  lemma DropSquadsFacts(squads: seq<Squad>, key: string)
    ensures var r := Filter(squads, KeepSquad(key));
            && (forall s :: s in r <==> s in squads && Lower(s.name) != key)
            && (forall j :: 0 <= j < |r| ==> Lower(r[j].name) != key)
            && (forall s :: multiset(r)[s] == if Lower(s.name) != key then multiset(squads)[s] else 0)
            && (UniqueSquadNames(squads) ==> UniqueSquadNames(r))
  {
    var keep := KeepSquad(key);
    var r := Filter(squads, keep);
    forall s ensures s in r <==> s in squads && Lower(s.name) != key {
      assert keep(s) == (Lower(s.name) != key);
    }
    forall s ensures multiset(r)[s] == if Lower(s.name) != key then multiset(squads)[s] else 0 {
      assert keep(s) == (Lower(s.name) != key);
    }
    forall j | 0 <= j < |r| ensures Lower(r[j].name) != key {
      assert r[j] in r;
    }
    if UniqueSquadNames(squads) {
      FilterKeepsUniqueNames(squads, key);
    }
  }

  lemma {:induction false} FilterKeepsUniqueNames(squads: seq<Squad>, key: string)
    requires UniqueSquadNames(squads)
    ensures UniqueSquadNames(Filter(squads, KeepSquad(key)))
  {
    if squads != [] {
      var tail := squads[1..];
      assert UniqueSquadNames(tail) by {
        forall i, j | 0 <= i < j < |tail| ensures Lower(tail[i].name) != Lower(tail[j].name) {
          assert tail[i] == squads[i + 1] && tail[j] == squads[j + 1];
        }
      }
      FilterKeepsUniqueNames(tail, key);
      var rest := Filter(tail, KeepSquad(key));
      if KeepSquad(key)(squads[0]) {
        forall x | x in rest ensures Lower(x.name) != Lower(squads[0].name) {
          var k :| 0 <= k < |tail| && tail[k] == x;
          assert squads[k + 1] == x;
        }
        ConsKeepsUniqueNames(squads[0], rest);
        assert Filter(squads, KeepSquad(key)) == [squads[0]] + rest;
      } else {
        assert Filter(squads, KeepSquad(key)) == rest;
      }
    }
  }

  /** A squad whose name no other squad has can be put in front. */
  lemma ConsKeepsUniqueNames(s: Squad, rest: seq<Squad>)
    requires UniqueSquadNames(rest)
    requires forall x :: x in rest ==> Lower(x.name) != Lower(s.name)
    ensures UniqueSquadNames([s] + rest)
  {
    var r := [s] + rest;
    forall i, j | 0 <= i < j < |r| ensures Lower(r[i].name) != Lower(r[j].name) {
      assert r[j] == rest[j - 1];
      if i > 0 {
        assert r[i] == rest[i - 1];
      }
    }
  }

  /** The cascade of `squad_delete` on one player: drop the `squad` key when
      it names the deleted squad (an absent key counts as ""). */
  function DropMembership(p: Player, key: string): Player {
    if Lower(SquadOf(p)) == key then p.(squad := None) else p
  }

  /** The cascade over the whole list: positions and ids are kept. */
  function DropMemberships(players: seq<Player>, key: string): (r: seq<Player>)
    ensures SameIds(players, r)
    ensures forall i :: 0 <= i < |players| ==>
              if Lower(SquadOf(players[i])) == key then r[i] == players[i].(squad := None)
              else r[i] == players[i]
  {
    seq(|players|, i requires 0 <= i < |players| => DropMembership(players[i], key))
  }

  /** The lookup after the cascade finds the member without its squad key. */
  lemma DropMembershipsLookup(players: seq<Player>, key: string, id: int)
    requires FindPlayerById(players, id).Some?
    requires Lower(SquadOf(FindPlayerById(players, id).value)) == key
    ensures FindPlayerById(DropMemberships(players, key), id)
              == Some(FindPlayerById(players, id).value.(squad := None))
  {
    PlayerIndexSameIds(players, DropMemberships(players, key), id);
  }

  /** `squad_delete`: refuses an unknown squad; otherwise removes every squad
      with that name up to letter case and clears the `squad` key of exactly
      the players whose squad matches. Their `role` is left in place. */
  function SquadDelete(st: Store, name: string): (r: Result<Store, Error>)
    ensures r.Err? <==> FindSquadByName(st.squads, name).None?
    ensures r.Err? ==> r.error == SquadNotFound
    ensures r.Ok? ==> FindSquadByName(r.value.squads, name).None?
    ensures r.Ok? ==> forall s :: s in r.value.squads <==> s in st.squads && !SameName(s.name, name)
    ensures r.Ok? ==> IsSubsequence(r.value.squads, st.squads)
    ensures r.Ok? ==> forall s :: multiset(r.value.squads)[s]
                        == if SameName(s.name, name) then 0 else multiset(st.squads)[s]
    ensures r.Ok? ==> SameIds(st.players, r.value.players)
    ensures r.Ok? ==> forall i :: 0 <= i < |st.players| ==>
              if SameName(SquadOf(st.players[i]), name)
              then r.value.players[i] == st.players[i].(squad := None)
              else r.value.players[i] == st.players[i]
    ensures r.Ok? && UniqueSquadNames(st.squads) ==> UniqueSquadNames(r.value.squads)
  {
    if FindSquadByName(st.squads, name).None? then Err(SquadNotFound)
    else Ok(Store(DropSquads(st.squads, Lower(name)), DropMemberships(st.players, Lower(name))))
  }

  /** After a deletion every former member is a free agent under both
      definitions the bot uses, and keeps the rest of the record. */
  lemma SquadDeleteFreesMembers(st: Store, name: string, id: int)
    requires SquadDelete(st, name).Ok?
    requires FindPlayerById(st.players, id).Some?
    requires SameName(SquadOf(FindPlayerById(st.players, id).value), name)
    ensures var after := SquadDelete(st, name).value.players;
            && FindPlayerById(after, id) == Some(FindPlayerById(st.players, id).value.(squad := None))
            && IsFreeAgent(after, id)
            && IsFreeAgent(LoadPlayers(Some(after)), id)
  {
    var after := SquadDelete(st, name).value.players;
    assert after == DropMemberships(st.players, Lower(name));
    DropMembershipsLookup(st.players, Lower(name), id);
    EmptySquadIsFree(after, id);
    LoadKeepsLookup(after, id);
    EmptySquadIsFree(LoadPlayers(Some(after)), id);
  }

  /* --------------------------------------------------------------- members */

  /** `add_member`. The squad must exist. A registered player gets the squad
      name as typed and the squad role, and the game id and name only where
      they are supplied; an unknown user is appended with the profile
      defaults, but only when both game ids are supplied. */
  function AddMember(squads: seq<Squad>, players: seq<Player>, squadName: string,
                     memberId: int, memberName: string, mlbbId: Option<string>,
                     mlbbUsername: Option<string>, role: Option<string>)
    : (r: Result<seq<Player>, Error>)
    ensures r == Err(SquadNotFound) <==> FindSquadByName(squads, squadName).None?
    ensures r == Err(MissingGameIds) <==>
              FindSquadByName(squads, squadName).Some? && FindPlayerById(players, memberId).None?
              && (mlbbId.None? || mlbbUsername.None?)
    ensures r.Err? ==> r.error in {SquadNotFound, MissingGameIds}
    ensures r.Ok? ==> var q := FindPlayerById(r.value, memberId);
              && q.Some? && q.value.squad == Some(squadName)
              && q.value.role == Some(role.GetOr("Member"))
              && (mlbbId.Some? ==> q.value.mlbbId == mlbbId.value)
              && (mlbbUsername.Some? ==> q.value.mlbbUsername == mlbbUsername.value)
    ensures r.Ok? && FindPlayerById(players, memberId).Some? ==>
              var before := FindPlayerById(players, memberId).value;
              var q := FindPlayerById(r.value, memberId).value;
              && EditsOnly(players, r.value, PlayerIndex(players, memberId).value)
              && q == before.(mlbbId := q.mlbbId, mlbbUsername := q.mlbbUsername,
                           squad := q.squad, role := q.role)
              && (mlbbId.None? ==> q.mlbbId == before.mlbbId)
              && (mlbbUsername.None? ==> q.mlbbUsername == before.mlbbUsername)
    ensures r.Ok? && FindPlayerById(players, memberId).None? ==>
              && |r.value| == |players| + 1 && r.value[..|players|] == players
              && r.value[|players|].username == memberName
              && r.value[|players|].maxRank == Some("Unranked")
              && r.value[|players|].winRate == Some("Unknown")
              && r.value[|players|].availability == Some("Not specified")
              && r.value[|players|].roles == Some(map[])
              && KeyCount(r.value[|players|]) == 10
    ensures r.Ok? && UniqueIds(players) ==> UniqueIds(r.value)
  {
    if FindSquadByName(squads, squadName).None? then Err(SquadNotFound)
    else
      var title := role.GetOr(DefaultSquadRole);
      match PlayerIndex(players, memberId)
      case Some(i) =>
        var p := players[i];
        var q := p.(mlbbId := mlbbId.GetOr(p.mlbbId), mlbbUsername := mlbbUsername.GetOr(p.mlbbUsername),
                    squad := Some(squadName), role := Some(title));
        FindAfterEdit(players, memberId, q);
        Ok(players[i := q])
      case None =>
        if mlbbId.None? || mlbbUsername.None? then Err(MissingGameIds)
        else
          var q := Player(memberId, memberName, mlbbId.value, mlbbUsername.value,
                          Some(squadName), Some(title), Some(DefaultMaxRank),
                          Some(DefaultWinRate), Some(DefaultAvailability), Some(map[]));
          AppendNewId(players, q);
          Ok(players + [q])
  }

  /** A member added by `add_member` is listed by `find_squad_members` for
      the squad it was added to. */
  lemma AddMemberJoinsSquad(squads: seq<Squad>, players: seq<Player>, squadName: string,
                            memberId: int, memberName: string, mlbbId: Option<string>,
                            mlbbUsername: Option<string>, role: Option<string>)
    requires AddMember(squads, players, squadName, memberId, memberName, mlbbId, mlbbUsername, role).Ok?
    ensures var after := AddMember(squads, players, squadName, memberId, memberName,
                                   mlbbId, mlbbUsername, role).value;
            var members := FindSquadMembers(squads, after, squadName);
            members.Some? && FindPlayerById(after, memberId).value in members.value
  {
    var after := AddMember(squads, players, squadName, memberId, memberName, mlbbId, mlbbUsername, role).value;
    var q := FindPlayerById(after, memberId).value;
    var s := FindSquadByName(squads, squadName).value;
    assert SameName(SquadOf(q), s.name);
  }

  /** `remove_member`. Checks, in order: the squad exists, the user is
      registered, the player's squad (absent read as "") matches the squad
      name up to letter case. Then both `squad` and `role` are removed. */
  function RemoveMember(squads: seq<Squad>, players: seq<Player>, squadName: string, memberId: int)
    : (r: Result<seq<Player>, Error>)
    ensures r == Err(SquadNotFound) <==> FindSquadByName(squads, squadName).None?
    ensures r == Err(NotRegistered) <==>
              FindSquadByName(squads, squadName).Some? && FindPlayerById(players, memberId).None?
    ensures r == Err(NotInSquad) <==>
              FindSquadByName(squads, squadName).Some? && FindPlayerById(players, memberId).Some?
              && !SameName(SquadOf(FindPlayerById(players, memberId).value), squadName)
    ensures r.Err? ==> r.error in {SquadNotFound, NotRegistered, NotInSquad}
    ensures r.Ok? ==> EditsOnly(players, r.value, PlayerIndex(players, memberId).value)
    ensures r.Ok? ==> FindPlayerById(r.value, memberId)
                        == Some(FindPlayerById(players, memberId).value.(squad := None, role := None))
    ensures r.Ok? ==> IsFreeAgent(r.value, memberId)
    ensures r.Ok? && UniqueIds(players) ==> UniqueIds(r.value)
  {
    if FindSquadByName(squads, squadName).None? then Err(SquadNotFound)
    else
      match PlayerIndex(players, memberId)
      case None => Err(NotRegistered)
      case Some(i) =>
        if !SameName(SquadOf(players[i]), squadName) then Err(NotInSquad)
        else
          var q := players[i].(squad := None, role := None);
          FindAfterEdit(players, memberId, q);
          Ok(players[i := q])
  }

  /** The record `update_member` writes for a lower-cased, whitelisted field. */
  function SetMemberField(p: Player, field: string, value: string): Player {
    if field == "squad" && Lower(value) == "none" then p.(squad := None, role := None)
    else if field == "squad" then p.(squad := Some(value))
    else if field == "role" then p.(role := Some(value))
    else if field == "mlbb_id" then p.(mlbbId := value)
    else p.(mlbbUsername := value)
  }

  /** `update_member`. Checks, in order: the user is registered, the
      lower-cased field is one of `mlbb_id`, `mlbb_username`, `role`, `squad`,
      and a squad value other than "none" (any case) names an existing squad.
      "none" on `squad` removes both `squad` and `role`; otherwise the one key
      is set to the value verbatim. */
  function UpdateMember(squads: seq<Squad>, players: seq<Player>, memberId: int,
                        field: string, value: string): (r: Result<seq<Player>, Error>)
    ensures r == Err(NotRegistered) <==> FindPlayerById(players, memberId).None?
    ensures r == Err(InvalidField) <==>
              FindPlayerById(players, memberId).Some? && Lower(field) !in MemberFields
    ensures r == Err(SquadNotFound) <==>
              FindPlayerById(players, memberId).Some? && Lower(field) == "squad"
              && Lower(value) != "none" && FindSquadByName(squads, value).None?
    ensures r.Err? ==> r.error in {NotRegistered, InvalidField, SquadNotFound}
    ensures r.Ok? ==> EditsOnly(players, r.value, PlayerIndex(players, memberId).value)
    ensures r.Ok? ==> var before := FindPlayerById(players, memberId).value;
              var f := Lower(field);
              FindPlayerById(r.value, memberId) == Some(
                if f == "squad" && Lower(value) == "none" then before.(squad := None, role := None)
                else if f == "squad" then before.(squad := Some(value))
                else if f == "role" then before.(role := Some(value))
                else if f == "mlbb_id" then before.(mlbbId := value)
                else before.(mlbbUsername := value))
    ensures r.Ok? && UniqueIds(players) ==> UniqueIds(r.value)
  {
    match PlayerIndex(players, memberId)
    case None => Err(NotRegistered)
    case Some(i) =>
      var f := Lower(field);
      if f !in MemberFields then Err(InvalidField)
      else if f == "squad" && Lower(value) != "none" && FindSquadByName(squads, value).None? then
        Err(SquadNotFound)
      else
        var q := SetMemberField(players[i], f, value);
        FindAfterEdit(players, memberId, q);
        Ok(players[i := q])
  }

  /** A player whose squad names an existing squad is listed as its member. */
  lemma MemberListed(squads: seq<Squad>, players: seq<Player>, name: string, p: Player)
    requires FindSquadByName(squads, name).Some?
    requires p in players && SameName(SquadOf(p), name)
    ensures FindSquadMembers(squads, players, name).Some?
    ensures p in FindSquadMembers(squads, players, name).value
  {
    var s := FindSquadByName(squads, name).value;
    assert SameName(s.name, name);
  }

  /** The record `update_member` leaves behind for a real squad value. */
  lemma UpdateMemberSetsSquad(squads: seq<Squad>, players: seq<Player>, memberId: int,
                              field: string, value: string)
    requires UpdateMember(squads, players, memberId, field, value).Ok?
    requires Lower(field) == "squad" && Lower(value) != "none"
    ensures var after := UpdateMember(squads, players, memberId, field, value).value;
            && FindPlayerById(after, memberId).Some?
            && FindPlayerById(after, memberId).value in after
            && FindPlayerById(after, memberId).value.squad == Some(value)
            && FindSquadByName(squads, value).Some?
  {
  }

  /** Moving a member into an existing squad with `update_member` (the
      field written in any letter case) makes `find_squad_members` list them
      for that squad. */
  lemma UpdateMemberJoinsSquad(squads: seq<Squad>, players: seq<Player>, memberId: int,
                               field: string, value: string)
    requires UpdateMember(squads, players, memberId, field, value).Ok?
    requires Lower(field) == "squad" && Lower(value) != "none"
    ensures var after := UpdateMember(squads, players, memberId, field, value).value;
            var members := FindSquadMembers(squads, after, value);
            members.Some? && FindPlayerById(after, memberId).value in members.value
  {
    var after := UpdateMember(squads, players, memberId, field, value).value;
    UpdateMemberSetsSquad(squads, players, memberId, field, value);
    MemberListed(squads, after, value, FindPlayerById(after, memberId).value);
  }
}

=== FILE: text.dfy ===
/** The string operations the bot relies on: `str.lower()`, `str.upper()`,
    `str.strip()`, `str.endswith()`, the substring test `a in b` and
    `str.split(sep)`, all restricted to ASCII (no Unicode case mapping). */
module Text {

  /* ---------------------------------------------------------------- case */

  function LowerChar(c: char): char {
    if 'A' <= c <= 'Z' then (c as int + 32) as char else c
  }

  function UpperChar(c: char): char {
    if 'a' <= c <= 'z' then (c as int - 32) as char else c
  }

  /** ASCII `str.lower()`: every character lower-cased, nothing added or dropped. */
  function Lower(s: string): (r: string)
    ensures |r| == |s|
    ensures forall i :: 0 <= i < |s| ==> r[i] == LowerChar(s[i])
  {
    if s == [] then [] else [LowerChar(s[0])] + Lower(s[1..])
  }

  /** ASCII `str.upper()`. */
  function Upper(s: string): (r: string)
    ensures |r| == |s|
    ensures forall i :: 0 <= i < |s| ==> r[i] == UpperChar(s[i])
  {
    if s == [] then [] else [UpperChar(s[0])] + Upper(s[1..])
  }

  /** Lower-casing twice is lower-casing once. */
  lemma LowerIdempotent(s: string)
    ensures Lower(Lower(s)) == Lower(s)
  {
    forall i | 0 <= i < |s|
      ensures Lower(Lower(s))[i] == Lower(s)[i]
    {
      assert LowerChar(LowerChar(s[i])) == LowerChar(s[i]);
    }
  }

  /** A string without upper-case letters is its own lower-cased form. */
  lemma LowerOfLowerCase(s: string)
    requires forall i :: 0 <= i < |s| ==> !('A' <= s[i] <= 'Z')
    ensures Lower(s) == s
  {
    assert forall i :: 0 <= i < |s| ==> Lower(s)[i] == s[i];
  }

  /** Upper-casing first does not change the lower-cased form, so every
      case-insensitive comparison treats `s` and `Upper(s)` alike. */
  lemma LowerOfUpper(s: string)
    ensures Lower(Upper(s)) == Lower(s)
  {
    forall i | 0 <= i < |s|
      ensures Lower(Upper(s))[i] == Lower(s)[i]
    {
      assert LowerChar(UpperChar(s[i])) == LowerChar(s[i]);
    }
  }

  /* ---------------------------------------------------------- whitespace */

  /** The ASCII characters Python's `str.isspace()` accepts: tab, line feed,
      vertical tab, form feed, carriage return, the four separators 0x1C-0x1F
      and space. */
  predicate IsSpace(c: char) {
    9 <= c as int <= 13 || 28 <= c as int <= 32
  }

  predicate AllSpace(s: string) {
    forall i :: 0 <= i < |s| ==> IsSpace(s[i])
  }

  /** `str.lstrip()`: the longest suffix of `s` that does not start with whitespace. */
  function StripLeft(s: string): (r: string)
    ensures |r| <= |s| && r == s[|s| - |r|..]
    ensures AllSpace(s[..|s| - |r|])
    ensures r != [] ==> !IsSpace(r[0])
  {
    if s != [] && IsSpace(s[0]) then StripLeft(s[1..]) else s
  }

  /** `str.rstrip()`: the longest prefix of `s` that does not end with whitespace. */
  function StripRight(s: string): (r: string)
    ensures |r| <= |s| && r == s[..|r|]
    ensures AllSpace(s[|r|..])
    ensures r != [] ==> !IsSpace(r[|r| - 1])
  {
    if s != [] && IsSpace(s[|s| - 1]) then
      var r := StripRight(s[..|s| - 1]);
      assert s[..|s| - 1][..|r|] == s[..|r|];
      assert s[|r|..] == s[..|s| - 1][|r|..] + [s[|s| - 1]];
      r
    else s
  }

  /** `str.strip()`: whitespace removed at both ends and nowhere else. */
  function Strip(s: string): (r: string)
    ensures r == [] <==> AllSpace(s)
    ensures r != [] ==> !IsSpace(r[0]) && !IsSpace(r[|r| - 1])
    ensures exists k: nat :: Framed(s, r, k)
  {
    var l := StripLeft(s);
    var r := StripRight(l);
    StripParts(s, l, r);
    r
  }

  /** `r` occurs in `s` at `k` with only whitespace before and after it. */
  predicate Framed(s: string, r: string, k: nat) {
    OccursAt(s, r, k) && AllSpace(s[..k]) && AllSpace(s[k + |r|..])
  }

  /** The two halves of `Strip` leave a slice of `s`, empty exactly when `s`
      is all whitespace. */
  lemma StripParts(s: string, l: string, r: string)
    requires |l| <= |s| && l == s[|s| - |l|..] && AllSpace(s[..|s| - |l|])
    requires l != [] ==> !IsSpace(l[0])
    requires |r| <= |l| && r == l[..|r|] && AllSpace(l[|r|..])
    requires r != [] ==> !IsSpace(r[|r| - 1])
    ensures Framed(s, r, |s| - |l|)
    ensures r == [] <==> AllSpace(s)
    ensures r != [] ==> !IsSpace(r[0]) && !IsSpace(r[|r| - 1])
  {
    var k := |s| - |l|;
    assert r == s[k..][..|r|];
    assert s[k..k + |r|] == r;
    assert s[k + |r|..] == l[|r|..];
    if r == [] {
      assert l[0..] == l;
      AllSpaceConcat(s[..k], l);
      assert s[..k] + l == s;
    } else {
      assert r[0] == s[k];
      assert l[0] == s[k];
    }
  }

  /** Two all-whitespace strings put together are all whitespace. */
  lemma AllSpaceConcat(a: string, b: string)
    requires AllSpace(a) && AllSpace(b)
    ensures AllSpace(a + b)
  {
    forall i | 0 <= i < |a + b| ensures IsSpace((a + b)[i]) {
      if i < |a| {
        assert (a + b)[i] == a[i];
      } else {
        assert (a + b)[i] == b[i - |a|];
      }
    }
  }

  /** Stripping an already stripped string changes nothing. */
  lemma StripIdempotent(s: string)
    ensures Strip(Strip(s)) == Strip(s)
  {
    var t := Strip(s);
    assert StripLeft(t) == t;
    assert StripRight(t) == t;
  }

  /* ------------------------------------------------------------- suffixes */

  predicate EndsWith(s: string, c: char) {
    |s| > 0 && s[|s| - 1] == c
  }

  /** The win-rate rule of `profile_update` and `set_winrate`: append `%`
      unless the value already ends with one. */
  function WithPercent(v: string): (r: string)
    ensures EndsWith(r, '%')
    ensures |r| >= |v| && r[..|v|] == v
    ensures |r| == |v| <==> EndsWith(v, '%')
    ensures |r| <= |v| + 1
  {
    if EndsWith(v, '%') then v else v + "%"
  }

  /** Appending the suffix a second time does nothing. */
  lemma WithPercentIdempotent(v: string)
    ensures WithPercent(WithPercent(v)) == WithPercent(v)
  {
  }

  /* ----------------------------------------------------------- substrings */

  /** `needle` occurs in `hay` starting at index `i`. */
  predicate OccursAt(hay: string, needle: string, i: nat) {
    i + |needle| <= |hay| && hay[i..i + |needle|] == needle
  }

  /** Python's `needle in hay` on strings, by scanning start positions. */
  predicate Contains(hay: string, needle: string)
    decreases |hay|
  {
    needle <= hay || (hay != [] && Contains(hay[1..], needle))
  }

  /** A scan that succeeds has found an occurrence. */
  lemma {:induction false} ContainsHasOccurrence(hay: string, needle: string) returns (i: nat)
    requires Contains(hay, needle)
    ensures OccursAt(hay, needle, i)
    decreases |hay|
  {
    if needle <= hay {
      i := 0;
    } else {
      var j := ContainsHasOccurrence(hay[1..], needle);
      assert hay[j + 1..j + 1 + |needle|] == hay[1..][j..j + |needle|];
      i := j + 1;
    }
  }

  /** An occurrence at any position is found by the scan. */
  lemma {:induction false} OccurrenceContains(hay: string, needle: string, i: nat)
    requires OccursAt(hay, needle, i)
    ensures Contains(hay, needle)
    decreases i
  {
    if i > 0 {
      assert hay[1..][i - 1..i - 1 + |needle|] == hay[i..i + |needle|];
      OccurrenceContains(hay[1..], needle, i - 1);
    }
  }

  /** `Contains` holds exactly when `needle` occurs at some position of `hay`. */
  lemma ContainsIff(hay: string, needle: string)
    ensures Contains(hay, needle) <==> exists i: nat :: OccursAt(hay, needle, i)
  {
    if Contains(hay, needle) {
      var i := ContainsHasOccurrence(hay, needle);
    }
    forall i: nat | OccursAt(hay, needle, i)
      ensures Contains(hay, needle)
    {
      OccurrenceContains(hay, needle, i);
    }
  }

  /* ------------------------------------------------------- split and join */

  /** Number of occurrences of `c` in `s`. */
  function Count(s: string, c: char): (n: nat)
    ensures n == 0 <==> c !in s
    ensures n <= |s|
  {
    if s == [] then 0 else (if s[0] == c then 1 else 0) + Count(s[1..], c)
  }

  /** Python's `s.split(sep)` with a one-character separator: the pieces
      between separators, one more piece than there are separators. */
  function Split(s: string, sep: char): (r: seq<string>)
    ensures |r| == Count(s, sep) + 1
    ensures forall i :: 0 <= i < |r| ==> sep !in r[i]
  {
    if s == [] then [[]]
    else
      var rest := Split(s[1..], sep);
      if s[0] == sep then [[]] + rest
      else [[s[0]] + rest[0]] + rest[1..]
  }

  /** Python's `sep.join(parts)`. */
  function Join(parts: seq<string>, sep: char): string
    requires |parts| >= 1
  {
    if |parts| == 1 then parts[0] else parts[0] + [sep] + Join(parts[1..], sep)
  }

  /** Joining the pieces of a split gives back the original string. */
  lemma {:induction false} JoinSplit(s: string, sep: char)
    ensures Join(Split(s, sep), sep) == s
  {
    if s != [] {
      JoinSplit(s[1..], sep);
      if s[0] == sep {
        JoinSplitAtSeparator(s, sep);
      } else {
        JoinSplitAtOther(s, sep);
      }
    }
  }

  /** The step of `JoinSplit` for a string starting with the separator. */
  lemma JoinSplitAtSeparator(s: string, sep: char)
    requires s != [] && s[0] == sep
    requires Join(Split(s[1..], sep), sep) == s[1..]
    ensures Join(Split(s, sep), sep) == s
  {
    var rest := Split(s[1..], sep);
    assert Split(s, sep) == [[]] + rest;
    JoinEmptyFirst(rest, sep);
    assert [sep] + s[1..] == s;
  }

  /** An empty first piece leaves just the separator in front of the join. */
  lemma JoinEmptyFirst(rest: seq<string>, sep: char)
    requires |rest| >= 1
    ensures Join([[]] + rest, sep) == [sep] + Join(rest, sep)
  {
    assert ([[]] + rest)[1..] == rest;
  }

  /** The step of `JoinSplit` for a string starting with another character. */
  lemma JoinSplitAtOther(s: string, sep: char)
    requires s != [] && s[0] != sep
    requires Join(Split(s[1..], sep), sep) == s[1..]
    ensures Join(Split(s, sep), sep) == s
  {
    var rest := Split(s[1..], sep);
    assert Split(s, sep) == [[s[0]] + rest[0]] + rest[1..];
    JoinPrepend(rest, s[0], sep);
    assert [s[0]] + s[1..] == s;
  }

  /** Putting a character in front of the first piece puts it in front of the join. */
  lemma JoinPrepend(parts: seq<string>, c: char, sep: char)
    requires |parts| >= 1
    ensures Join([[c] + parts[0]] + parts[1..], sep) == [c] + Join(parts, sep)
  {
    var moved := [[c] + parts[0]] + parts[1..];
    if |parts| > 1 {
      assert moved[1..] == parts[1..];
      assert Join(moved, sep) == ([c] + parts[0]) + [sep] + Join(parts[1..], sep);
      assert Join(parts, sep) == parts[0] + [sep] + Join(parts[1..], sep);
    }
  }

  /** A string without the separator splits into itself alone. */
  lemma {:induction false} SplitNoSeparator(s: string, sep: char)
    requires sep !in s
    ensures Split(s, sep) == [s]
  {
    if s != [] {
      assert forall c :: c in s[1..] ==> c in s;
      SplitNoSeparator(s[1..], sep);
      assert s[0] != sep;
      assert [s[0]] + s[1..] == s;
    }
  }

  /** Splitting at the first separator: the piece before it, then the split of the rest. */
  lemma {:induction false} SplitAtFirst(a: string, b: string, sep: char)
    requires sep !in a
    ensures Split(a + [sep] + b, sep) == [a] + Split(b, sep)
  {
    if a == [] {
      assert a + [sep] + b == [sep] + b;
      assert ([sep] + b)[1..] == b;
    } else {
      var s := a + [sep] + b;
      assert s[1..] == a[1..] + [sep] + b;
      SplitAtFirst(a[1..], b, sep);
      assert [a[0]] + a[1..] == a;
    }
  }

  /** Splitting a join of separator-free pieces gives back the pieces. */
  lemma {:induction false} SplitJoin(parts: seq<string>, sep: char)
    requires |parts| >= 1
    requires forall i :: 0 <= i < |parts| ==> sep !in parts[i]
    ensures Split(Join(parts, sep), sep) == parts
  {
    if |parts| == 1 {
      SplitNoSeparator(parts[0], sep);
    } else {
      SplitJoin(parts[1..], sep);
      SplitAtFirst(parts[0], Join(parts[1..], sep), sep);
      assert [parts[0]] + parts[1..] == parts;
    }
  }
}

=== FILE: wrappers.dfy ===
/** Wrappers shared by the whole model: `Option` stands for a
    dictionary key that may be absent (or a lookup that may find nothing), and
    `Result` for a command handler that either produces new collections or stops
    with an error kind. */
module Wrappers {

  datatype Option<+T> = None | Some(value: T) {

    /** The value, or `default` when absent (Python's `dict.get(key, default)`). */
    function GetOr(default: T): T {
      match this
      case Some(v) => v
      case None => default
    }
  }

  datatype Result<+T, +E> = Ok(value: T) | Err(error: E)
}
